=== FILE: README.md ===
# POS checkout core in Dafny

A model of the checkout engine of a point-of-sale front end (`src/features/pos`). It has four parts:

- **Calculator** (`CalculatorService`, `CalculatorStore`): the keypad state machine. A state is a display text, a pending left operand and operator, and a "waiting for a new number" flag. The transitions are digit, decimal point, operator or `=`, clear and load-amount. It chains left to right, and dividing by zero yields the dividend. Two getters are derived from the state: the expression line and the `=` preview.
- **Payment rules** (`PaymentEntities`, `PaymentService`): the method table, payment creation with cent rounding, validation that reports every broken rule, totals, and grouping by method.
- **Payment allocator** (`PaymentStore`): the list of payments, the selected method and a staged reference. It has the ordered checks of `assignPayment`, the removals, the convenience allocators and the derived amounts. The order total is a parameter of every operation that reads it.
- **Order ledger** (`OrderStore`): the line items and tax rate, the rounded subtotal, taxes and total, and the item edits.

Modelling choices:

- Money is an exact `real`. `Money.Round2` is `Math.round(100 x) / 100` (halves go up).
- A JavaScript number in the calculator is `NumberText.Num`: `NaN` or a finite real.
- `parseFloat`, `String(n)` for a digit key and `toFixed(2)` are concrete functions on `seq<char>`. `String` of a computed result is a parameter `show` of the calculator operations (see "Left out").
- A call that throws in the source returns `Failure` here, and the state stays as it was.
- Generated ids are natural numbers passed in by the caller.

Two behaviours of the source are modelled as written and exhibited by lemmas:

- **Blank reference** (`PaymentStore.BlankReferenceAccepted`). The assign button's guard trims the staged reference. `assignPayment` and `validatePayment` only ask that it be non-empty. So a transfer with a reference of spaces is refused by the guard but accepted and recorded by the action.
- **Unchecked `addItem`** (`OrderStore.AddItemTrustsCaller`). `addItem` checks nothing. A line with a negative quantity and a total unrelated to its price is counted in the subtotal. The edits that do recompute totals keep lines consistent (`OrderStore.UpdateItemQuantityKeepsLinesConsistent`). `addItem` keeps them consistent exactly when the caller's line is consistent (`OrderStore.AddItemKeepsLinesConsistent`).

The main invariant of the allocator is `PaymentStore.Consistent`: every recorded payment is whole cents and valid, and the payments add up to at most the order total, and to nothing when the total is not positive. It holds after any sequence of payment-store calls made against one fixed order total, provided that total is whole cents, which the ledger's total always is (`PaymentStore.AssignedNeverExceedsTotal`, `PaymentStore.CheckoutConservation`). Changing the order after payments are made is outside this promise (see "Left out").

## Model

| member | source | states |
|---|---|---|
| `Money.Round2` | src/features/pos/domain/services/PaymentService.ts:20 | the rounded amount is whole cents and lies in the half-open window (x - 0.005, x + 0.005] |
| `Money.Round2Unique` | src/features/pos/application/stores/useOrderStore.ts:31-33 | any whole-cent value in that window is the rounding of x, so ties go up |
| `Money.Round2FixesCents` | src/features/pos/application/stores/useOrderStore.ts:40-42 | rounding leaves x unchanged exactly when x is whole cents |
| `Money.Round2Idempotent` | src/features/pos/application/stores/useOrderStore.ts:30-42 | rounding an already rounded amount changes nothing |
| `Money.Round2Monotone` | src/features/pos/domain/services/PaymentService.ts:20 | rounding preserves the order of two amounts |
| `Money.CentsClosed` | src/features/pos/application/stores/useOrderStore.ts:41 | sums and differences of whole-cent amounts are whole cents |
| `Money.Max0` | src/features/pos/application/stores/usePaymentStore.ts:51 | `Math.max(0, x)` is non-negative, at least x, and is x or 0 |
| `Money.Min` | src/features/pos/application/stores/usePaymentStore.ts:155 | `Math.min` is at most both arguments and equals one of them |
| `NumberText.NatToStr` | src/features/pos/domain/services/CalculatorService.ts:14 | the text of a key number is non-empty and all digits, and has one character exactly when the number is below 10 |
| `NumberText.ParseUnsigned` | src/features/pos/domain/services/CalculatorService.ts:29 | `parseFloat` without a sign: NaN exactly when the text does not start with a digit or with '.' and a digit; never negative; a run of digits reads as its decimal value |
| `NumberText.ParseFloat` | src/features/pos/application/stores/useCalculatorStore.ts:36 | `parseFloat` with an optional sign: negative only after a leading '-', which negates what follows; NaN after a sign exactly when the unsigned rest is NaN; a run of digits reads as its decimal value |
| `NumberText.ParseNatToStr` | src/features/pos/domain/services/CalculatorService.ts:29 | `parseFloat` of the text of a natural number gives back that number |
| `NumberText.ParseAppendedDigit` | src/features/pos/domain/services/CalculatorService.ts:21 | appending digit d to a typed integer t makes it read as 10 t + d |
| `NumberText.ToFixed2` | src/features/pos/application/stores/useCalculatorStore.ts:104 | `toFixed(2)` ends in a '.' and two digits; everything before the '.' is digits, after a leading '-' exactly when the amount is negative; only one '.' |
| `NumberText.ParseToFixed2` | src/features/pos/application/stores/useCalculatorStore.ts:104 | reading back `toFixed(2)` gives the amount rounded to the cent (the magnitude rounded, negated, for a negative amount) |
| `CalculatorService.InputNumber` | src/features/pos/domain/services/CalculatorService.ts:10-23 | while waiting or over "0", the digit replaces the display; otherwise it is appended; the flag is cleared and the pending operand and operator are kept |
| `CalculatorService.Calculate` | src/features/pos/domain/services/CalculatorService.ts:61-69 | the four operators on finite operands; dividing by zero yields the dividend; an unknown operator yields the second operand |
| `CalculatorService.PerformOperation` | src/features/pos/domain/services/CalculatorService.ts:25-59 | a resolvable pending operation is computed and shown; `=` then clears it and an operator chains it as the new left operand; otherwise `=` changes nothing and an operator records the parsed display, leaving the display as it was |
| `CalculatorService.EqualsIsIdempotent` | src/features/pos/domain/services/CalculatorService.ts:31-51 | pressing `=` twice is the same as pressing it once |
| `CalculatorService.OperatorReplacesOperator` | src/features/pos/domain/services/CalculatorService.ts:53-58 | with nothing to resolve, a second operator pressed straight after the first just replaces it |
| `CalculatorService.AddFiveAndThree` | src/features/pos/domain/services/__test__/CalculatorService.test.ts:20-33 | display "5", `+`, then "3" typed, then `=` shows "8" when 8 is written "8" |
| `CalculatorStore.InputDecimal` | src/features/pos/application/stores/useCalculatorStore.ts:49-62 | while waiting the display becomes "0."; otherwise a '.' is appended only when there is none yet; afterwards the display always holds a '.' |
| `CalculatorStore.InputDecimalIdempotent` | src/features/pos/application/stores/useCalculatorStore.ts:56-61 | a repeated decimal-point press changes nothing |
| `CalculatorStore.Clear` | src/features/pos/application/stores/useCalculatorStore.ts:92-99 | clear always returns the starting state |
| `CalculatorStore.LoadAmount` | src/features/pos/application/stores/useCalculatorStore.ts:101-107 | the display shows the amount with two decimals and, for a non-negative amount (which is what `loadRemainingAmount` passes), reads back as the amount rounded to the cent; waiting is set; the pending operation is kept |
| `CalculatorStore.OperatorSymbol` | src/features/pos/application/stores/useCalculatorStore.ts:20-22 | `*` is shown as ×, `/` as ÷, and any other operator as written |
| `CalculatorStore.CurrentExpression` | src/features/pos/application/stores/useCalculatorStore.ts:18-29 | empty exactly when no operand and operator are pending; otherwise it starts with the left operand's text, a space and the operator's symbol; while waiting that is all of it, and otherwise a space and the display follow |
| `CalculatorStore.ExpressionAddsTypedOperand` | src/features/pos/application/stores/useCalculatorStore.ts:24-26 | the line shown while typing extends the line shown while waiting by exactly " " plus the display |
| `CalculatorStore.PartialResult` | src/features/pos/application/stores/useCalculatorStore.ts:31-42 | present exactly when a pending operation is resolvable and the display reads as a number; then it is the display `=` would produce |
| `CalculatorStore.PreviewAvailable` | src/features/pos/application/stores/useCalculatorStore.ts:36-37 | on a well-formed state the NaN guard never hides the preview: it is present exactly when the operation is resolvable |
| `CalculatorStore.ChainState` | src/features/pos/domain/services/CalculatorService.ts:43-48 | after the keys of a chain, the last operand is displayed and everything before it is folded into the pending left operand |
| `CalculatorStore.ChainingIsLeftToRight` | src/features/pos/domain/services/CalculatorService.ts:31-48 | `=` after any chain of operators shows the strictly left-to-right value, as given by an independent fold |
| `CalculatorStore.OneOperation` | src/features/pos/domain/services/CalculatorService.ts:31-48 | for whole-number operands a, b and any non-empty operator o other than `=`, `a o b =` shows `show` of `calculate(a, b, o)` |
| `CalculatorStore.TwoOperations` | src/features/pos/domain/services/CalculatorService.ts:31-48 | `a o1 b o2 c =` shows `show` of `calculate(calculate(a, b, o1), c, o2)`: the first operation is resolved when the second operator is pressed |
| `CalculatorStore.FivePlusThree` | src/features/pos/application/stores/__tests__/useCalculatorStore.test.ts:10-21 | given that `show` writes 8 as "8", keys 5, `+`, 3, `=` show "8" |
| `CalculatorStore.FivePlusThreePlusTwo` | src/features/pos/domain/services/CalculatorService.ts:43-48 | keys 5 + 3 + 2 = show 10 |
| `CalculatorStore.DivideByZeroShowsDividend` | src/features/pos/domain/services/CalculatorService.ts:66 | keys 5 / 0 = show 5 |
| `CalculatorStore.PressKeepsWellFormed` | src/features/pos/domain/services/CalculatorService.ts:25-59 | every key keeps the display readable as a finite number and the left operand finite |
| `CalculatorStore.DisplayAlwaysReadable` | src/features/pos/application/stores/useCalculatorStore.ts:44-107 | after any key sequence the display parses to a finite number |
| `CalculatorStore.PressKeepsOneSeparator` | src/features/pos/application/stores/useCalculatorStore.ts:56-61 | no key puts a second '.' on the display |
| `Seqs.FirstIndex` | src/features/pos/application/stores/useOrderStore.ts:61 | `findIndex` finds the first matching position (a match with no match before it), or none exactly when nothing matches |
| `Seqs.RemoveAt` | src/features/pos/application/stores/useOrderStore.ts:63 | `splice(i, 1)` drops exactly element i and shifts the rest down |
| `PaymentService.FindConfig` | src/features/pos/domain/services/PaymentService.ts:47 | `find` returns a table entry for the method, or none exactly when the table has no such entry |
| `PaymentService.GetMethodConfig` | src/features/pos/domain/services/PaymentService.ts:46-48 | every method has a configuration with its own id; only a transfer requires a reference |
| `PaymentService.CreatePayment` | src/features/pos/domain/services/PaymentService.ts:12-24 | method, id and reference are kept; the amount is rounded to whole cents within half a cent |
| `PaymentService.CreatePaymentRounds` | src/features/pos/domain/services/__tests__/PaymentService.test.ts:6-14 | 10.555 is stored as 10.56 |
| `PaymentService.ValidatePayment` | src/features/pos/domain/services/PaymentService.ts:26-44 | each error is reported exactly when its rule is broken; no errors exactly when all rules hold; the errors come in rule order with no repeats, so at most three |
| `PaymentService.TransferMessage` | src/features/pos/domain/services/PaymentService.ts:40 | the missing-reference message for a transfer is "Transferencia requiere referencia" |
| `PaymentService.NegativeAmountRejected` | src/features/pos/domain/services/__tests__/PaymentService.test.ts:16-24 | a transfer of -5 is reported as non-positive |
| `PaymentService.HugeAmountRejected` | src/features/pos/domain/services/__tests__/PaymentService.test.ts:26-28 | an amount of one million is reported as over the maximum |
| `PaymentService.TransferWithoutReferenceRejected` | src/features/pos/domain/services/__tests__/PaymentService.test.ts:30-32 | a transfer of 10 without a reference is reported as missing one |
| `PaymentService.CalculateTotal` | src/features/pos/domain/services/PaymentService.ts:50-54 | the total is whole cents within half a cent of the sum, 0 for no payments, and exactly the sum when every amount is whole cents |
| `PaymentService.OfMethod` | src/features/pos/domain/services/PaymentService.ts:56-62 | the payments of one method, all of that method, holding exactly the input payments of that method |
| `PaymentService.GroupSizesAddUp` | src/features/pos/domain/services/PaymentService.ts:56-62 | the four groups together hold every payment once |
| `PaymentService.GroupByMethod` | src/features/pos/domain/services/PaymentService.ts:56-62 | a key exactly for each method that has payments, holding that method's payments in order |
| `PaymentService.GroupScenario` | src/features/pos/domain/services/__tests__/PaymentService.test.ts:35-43 | two cash payments and one store-credit payment give groups of two and one |
| `OrderStore.Subtotal` | src/features/pos/application/stores/useOrderStore.ts:30-34 | whole cents, within half a cent of the sum of line totals, 0 for no lines |
| `OrderStore.Taxes` | src/features/pos/application/stores/useOrderStore.ts:36-38 | whole cents within half a cent of subtotal times the rate |
| `OrderStore.Total` | src/features/pos/application/stores/useOrderStore.ts:40-42 | whole cents and exactly subtotal plus taxes |
| `OrderStore.TotalsAreRounded` | src/features/pos/application/stores/useOrderStore.ts:30-42 | subtotal, taxes and total are fixed points of the rounding |
| `OrderStore.InitialTotals` | src/features/pos/application/stores/useOrderStore.ts:18-24 | the seeded order has subtotal 13.00, taxes 1.30 and total 14.30 |
| `OrderStore.AddItem` | src/features/pos/application/stores/useOrderStore.ts:52-58 | exactly one line is appended as supplied; earlier lines and the rate are kept; the line total sum grows by the supplied total |
| `OrderStore.RemoveItem` | src/features/pos/application/stores/useOrderStore.ts:60-65 | removes only the first line with the id; no change when the id is absent |
| `OrderStore.UpdateItemQuantity` | src/features/pos/application/stores/useOrderStore.ts:67-79 | no change for a non-positive quantity or an absent id; otherwise only the first matching line changes, in place, with the new quantity and total price times quantity rounded |
| `OrderStore.LineTotal` | src/features/pos/application/stores/useOrderStore.ts:73 | a line total is whole cents within half a cent of price times quantity |
| `OrderStore.ItemCount` | src/features/pos/application/stores/useOrderStore.ts:44 | the number of lines is 0 exactly for an order with no lines |
| `OrderStore.IsEmpty` | src/features/pos/application/stores/useOrderStore.ts:46 | true exactly when the order has no lines |
| `OrderStore.ClearOrder` | src/features/pos/application/stores/useOrderStore.ts:81-83 | no lines are left, the count is 0 and the subtotal is 0 |
| `OrderStore.SetTaxRate` | src/features/pos/application/stores/useOrderStore.ts:85-89 | the rate changes exactly when the new rate is between 0 and 1; the lines are kept |
| `OrderStore.RemoveItemKeepsLinesConsistent` | src/features/pos/application/stores/useOrderStore.ts:60-65 | removing a line keeps every line's total equal to price times quantity |
| `OrderStore.UpdateItemQuantityKeepsLinesConsistent` | src/features/pos/application/stores/useOrderStore.ts:67-79 | a quantity update keeps every line consistent |
| `OrderStore.AddItemKeepsLinesConsistent` | src/features/pos/application/stores/useOrderStore.ts:52-58 | adding keeps the lines consistent exactly when the supplied line is consistent |
| `OrderStore.AddItemTrustsCaller` | src/features/pos/application/stores/useOrderStore.ts:52-58 | a line with quantity -2 and total 100 is accepted, is inconsistent, and makes the subtotal 100 |
| `PaymentStore.TotalAssigned` | src/features/pos/application/stores/usePaymentStore.ts:23 | whole cents, and exactly the sum when the payments are whole cents |
| `PaymentStore.RemainingAmount` | src/features/pos/application/stores/usePaymentStore.ts:49-52 | never negative; 0 exactly when the assigned total reaches the order total; otherwise total minus assigned |
| `PaymentStore.PaymentsByMethod` | src/features/pos/application/stores/usePaymentStore.ts:25-39 | all four methods are present, each with the rounded total of that method's payments (0 when none) |
| `PaymentStore.IsPaymentComplete` | src/features/pos/application/stores/usePaymentStore.ts:54 | complete exactly when the assigned total has reached the order total |
| `PaymentStore.RequiresReference` | src/features/pos/application/stores/usePaymentStore.ts:45-47 | a reference is required exactly when the selected method is the transfer; false when nothing is selected |
| `PaymentStore.CanAssignPayment` | src/features/pos/application/stores/usePaymentStore.ts:56-59 | a method is selected and, if it is the transfer, the staged reference has a character that is not white space |
| `PaymentStore.AssignErrorMessage` | src/features/pos/application/stores/usePaymentStore.ts:88-110 | the three fixed sentences for the three early checks; for failed validation the broken rules' messages joined by ", ", exactly the rule-ordered messages joined by ", ", so the single message when one rule is broken, and always beginning with the first |
| `PaymentStore.ActiveMethodConfig` | src/features/pos/application/stores/usePaymentStore.ts:41-43 | present exactly when a method is selected; it is the table entry whose id is that method, and it requires a reference exactly for the transfer |
| `PaymentStore.SetActiveMethod` | src/features/pos/application/stores/usePaymentStore.ts:77-80 | the method is set and the staged reference is reset to empty; the payments are kept |
| `PaymentStore.SetReference` | src/features/pos/application/stores/usePaymentStore.ts:82-84 | only the staged reference changes |
| `PaymentStore.FinalReference` | src/features/pos/application/stores/usePaymentStore.ts:100 | the custom reference if non-empty, else the staged one if non-empty, else none; never the empty string |
| `PaymentStore.AssignPayment` | src/features/pos/application/stores/usePaymentStore.ts:86-120 | fails in check order (no method, amount not positive, amount over what remains, and then, with exactly the list `validatePayment` returns, validation errors); succeeds exactly when an independent admissibility condition holds; on success appends exactly one payment with the selected method, the rounded amount and the final reference; earlier payments kept; reference emptied; method cleared exactly when the payment is complete |
| `PaymentStore.RemovePayment` | src/features/pos/application/stores/usePaymentStore.ts:122-127 | removes only the first payment with the id; no change when the id is absent |
| `PaymentStore.ExceptMethod` | src/features/pos/application/stores/usePaymentStore.ts:130 | the filter keeps exactly the payments of the other methods |
| `PaymentStore.ExceptMethodGroups` | src/features/pos/application/stores/usePaymentStore.ts:130 | every other method's payments are kept in order, and exactly the payments of the removed method go |
| `PaymentStore.RemovePaymentsByMethod` | src/features/pos/application/stores/usePaymentStore.ts:129-131 | no payment of the method is left; every other payment is kept, at the position given by the number of kept payments before it, so their relative order is the original one; nothing else is in the result, and the count drops by that method's count |
| `PaymentStore.ClearAllPayments` | src/features/pos/application/stores/usePaymentStore.ts:133-137 | no payments, no method and an empty reference |
| `PaymentStore.AssignRemainingAmount` | src/features/pos/application/stores/usePaymentStore.ts:144-148 | assigns exactly what remains when something remains and a method is selected; otherwise does nothing |
| `PaymentStore.AssignShare` | src/features/pos/application/stores/usePaymentStore.ts:150-165 | assigns the total over the given number of parts, rounded and capped at what remains, when that share is positive and a method is selected; otherwise does nothing |
| `PaymentStore.AssignHalfAmount` | src/features/pos/application/stores/usePaymentStore.ts:151-157 | half the total, rounded and capped at what remains; nothing without a method or a positive half |
| `PaymentStore.AssignQuarterAmount` | src/features/pos/application/stores/usePaymentStore.ts:159-165 | a quarter of the total, rounded and capped at what remains; nothing without a method or a positive quarter |
| `PaymentStore.ConsistentAmounts` | src/features/pos/application/stores/usePaymentStore.ts:49-52 | under the invariant, the assigned total is the exact sum; for a non-negative total what remains is total minus assigned, for a negative total nothing remains, and when the total is not positive no payment is recorded |
| `PaymentStore.AssignKeepsConsistent` | src/features/pos/application/stores/usePaymentStore.ts:95-113 | with a whole-cent total, a successful assignment keeps the payments valid and within the total |
| `PaymentStore.RemovePaymentKeepsConsistent` | src/features/pos/application/stores/usePaymentStore.ts:122-127 | removing a payment keeps the invariant |
| `PaymentStore.RemovePaymentsByMethodKeepsConsistent` | src/features/pos/application/stores/usePaymentStore.ts:129-131 | removing a method's payments keeps the invariant |
| `PaymentStore.ApplyKeepsConsistent` | src/features/pos/application/stores/usePaymentStore.ts:77-165 | every store action, failed or not, keeps the invariant |
| `PaymentStore.ReplayKeepsConsistent` | src/features/pos/application/stores/usePaymentStore.ts:77-165 | any sequence of store actions keeps the invariant, for one fixed whole-cent order total |
| `PaymentStore.AssignedNeverExceedsTotal` | src/features/pos/application/stores/usePaymentStore.ts:95-97 | from an empty store and with a whole-cent total, every recorded payment is valid, the assigned total is at most the order total, and nothing is assigned when the total is not positive |
| `PaymentStore.CheckoutConservation` | src/features/pos/application/stores/usePaymentStore.ts:49-54 | when the ledger's total is not negative (an `addItem` with a negative line can make it so), assigned plus remaining equals that total, and the payment is complete exactly when assigned equals it |
| `PaymentStore.AssignRemainingCompletes` | src/features/pos/application/stores/usePaymentStore.ts:144-148 | assigning the remainder (when valid) completes the payment, makes the assigned total the order total and clears the method |
| `PaymentStore.AssignThenRemove` | src/features/pos/application/stores/usePaymentStore.ts:113 | removing a just-assigned payment under a fresh id restores the earlier payments |
| `PaymentStore.AssignCentsAppends` | src/features/pos/application/stores/usePaymentStore.ts:99-113 | a whole-cent amount within what remains, with a method that needs no reference and nothing staged, is appended unchanged |
| `PaymentStore.AssignCents` | src/features/pos/application/stores/usePaymentStore.ts:95-113 | such an assignment moves exactly its amount from what remains to what is assigned |
| `PaymentStore.AssignsAndUpdatesTotals` | src/features/pos/application/stores/__tests__/usePaymentStore.test.ts:11-21 | on the seeded order, a cash payment of 5 leaves one payment, 5 assigned and 9.3 remaining |
| `PaymentStore.CashThenCreditThenRemoveCash` | src/features/pos/application/stores/__tests__/usePaymentStore.test.ts:27-35 | for any whole-cent total of at least 5, cash 3 then credit 2 makes two payments, and removing cash leaves only the credit |
| `PaymentStore.RemovesPaymentsByMethodScenario` | src/features/pos/application/stores/__tests__/usePaymentStore.test.ts:23-36 | the same on the seeded order |
| `PaymentStore.BlankReferenceAccepted` | src/features/pos/application/stores/usePaymentStore.ts:56-59 | a transfer with a reference of one space is refused by the assign guard but accepted and recorded by `assignPayment` |

## Left out

- Floating point: amounts and calculator values are exact reals. IEEE rounding of sums and products is not modelled, nor NaN amounts in the payment store, nor infinities and large magnitudes. For an amount of NaN, every comparison in `assignPayment` is false, so the source would record it.
- `String` of a computed calculator result: it is the parameter `show`. No total parser can invert number formatting for every real (1/3 has no finite decimal text). So the results about what is displayed after an operation hold for any formatting, or take the needed text, such as 8 written "8", as a hypothesis.
- `parseFloat` exponents, leading white space, and "Infinity": the model's `ParseFloat` reads none of them, so it reads "1e-7" as 1. Digit keys, the decimal key and `toFixed(2)` only write digits, '.' and a leading '-'. But `String` of a computed result may use exponent notation ("1e+21", "1e-7"). That text enters the model only through `show`, and the display lemmas assume only that it starts with a digit or '-'.
- `toFixed` for magnitudes of 1e21 and above, where JavaScript switches to exponent notation.
- `CalculatorService.InputNumber`: the key number is a natural number. The keypad never passes a negative or fractional number.
- The calculator's open/closed panel flag (`isOpen`, `open`, `close`): UI state with no logic.
- The commented-out `assignToPayment` in the calculator store: dead code that depends on a timer.
- `loadRemainingAmount`, the `paymentMethods` getter and `paymentSummary`: a plain read, a constant, and presentation.
- The `color` and `icon` fields of a method configuration, and the payment timestamp: presentation and clock.
- `crypto.randomUUID()`: ids are caller-supplied natural numbers. Only `PaymentStore.AssignThenRemove` assumes the id is fresh.
- Vue/Pinia reactivity and the call from the payment store into the order store: each store is a record with pure transitions, and the order total is a parameter.
- Order edits after payments: the allocator invariant is proved for one order total held fixed across the payment calls. In the source, `removeItem` or `updateItemQuantity` after paying can lower the total below what is already assigned; `remainingAmount` then shows 0, and nothing in the model bounds the assigned total by the new order total.
- The keyboard shortcut composable: DOM key wiring with no logic of its own.
- The `Order` entity interface: it is never used by the modelled code.

=== FILE: calculator_service.dfy ===
/** The calculator's pure transition functions: typing a number and
    pressing an operator or `=`, with left-to-right chaining and the
    divide-by-zero guard. `String(result)` is not modelled: the text a
    computed number is shown as comes from the `show` parameter. */
module CalculatorService {
  import opened Wrappers
  import opened NumberText

  /** The calculator input: the text on the display, the left operand and
      operator of a pending operation, and whether the next digit starts a
      fresh number. */
  datatype CalculatorState = CalculatorState(
    display: string,
    previousValue: Option<Num>,
    operation: Option<string>,
    waitingForNewValue: bool)

  /** JavaScript truthiness of the `operation` field: set and non-empty. */
  predicate HasOperation(s: CalculatorState) {
    s.operation.Some? && s.operation.value != ""
  }

  /** A pending operation whose second operand has been typed, so that an
      operator or `=` resolves it. */
  predicate Resolvable(s: CalculatorState) {
    s.previousValue.Some? && HasOperation(s) && !s.waitingForNewValue
  }

  /** Pressing the number key `num`: it starts a fresh entry while waiting
      or over a lone "0", and is appended to the typed text otherwise. */
  function InputNumber(s: CalculatorState, num: nat): (r: CalculatorState)
    ensures r.previousValue == s.previousValue && r.operation == s.operation
    ensures !r.waitingForNewValue
    ensures s.waitingForNewValue || s.display == "0" ==> r.display == NatToStr(num)
    ensures !s.waitingForNewValue && s.display != "0" ==> r.display == s.display + NatToStr(num)
  {
    if s.waitingForNewValue then
      s.(display := NatToStr(num), waitingForNewValue := false)
    else
      s.(display := if s.display == "0" then NatToStr(num) else s.display + NatToStr(num))
  }

  /** The binary operation `first op second`. Division by zero yields the
      dividend, an unknown operator yields the second operand, and NaN
      propagates through the four arithmetic operators. */
  function Calculate(first: Num, second: Num, op: string): (r: Num)
    ensures op == "/" && second == Fin(0.0) ==> r == first
    ensures op != "+" && op != "-" && op != "*" && op != "/" ==> r == second
    ensures first.Fin? && second.Fin? ==> r.Fin?
    ensures first.Fin? && second.Fin? && op == "+" ==> r.value == first.value + second.value
    ensures first.Fin? && second.Fin? && op == "-" ==> r.value == first.value - second.value
    ensures first.Fin? && second.Fin? && op == "*" ==> r.value == first.value * second.value
    ensures first.Fin? && second.Fin? && op == "/" && second.value != 0.0 ==> r.value * second.value == first.value
  {
    if op == "+" then
      (if first.Fin? && second.Fin? then Fin(first.value + second.value) else NaN)
    else if op == "-" then
      (if first.Fin? && second.Fin? then Fin(first.value - second.value) else NaN)
    else if op == "*" then
      (if first.Fin? && second.Fin? then Fin(first.value * second.value) else NaN)
    else if op == "/" then
      (if second == Fin(0.0) then first
       else if first.Fin? && second.Fin? then Fin(first.value / second.value)
       else NaN)
    else second
  }

  /** Pressing an operator key or `=`. A resolvable pending operation is
      computed first; `=` then commits the result and forgets the pending
      operation, while an arithmetic operator keeps the result as the new
      left operand (left-to-right chaining). With nothing to resolve, `=`
      does nothing and an operator records the display's value as the left
      operand. */
  function PerformOperation(s: CalculatorState, op: string, show: Num -> string): (r: CalculatorState)
    ensures Resolvable(s) ==>
      var result := Calculate(s.previousValue.value, ParseFloat(s.display), s.operation.value);
      && r.display == show(result)
      && r.waitingForNewValue
      && (op == "=" ==> r.previousValue.None? && r.operation.None?)
      && (op != "=" ==> r.previousValue == Some(result) && r.operation == Some(op))
    ensures !Resolvable(s) && op == "=" ==> r == s
    ensures !Resolvable(s) && op != "=" ==>
      && r.display == s.display
      && r.previousValue == Some(ParseFloat(s.display))
      && r.operation == Some(op)
      && r.waitingForNewValue
  {
    var inputValue := ParseFloat(s.display);
    if Resolvable(s) then
      var result := Calculate(s.previousValue.value, inputValue, s.operation.value);
      if op == "=" then
        CalculatorState(show(result), None, None, true)
      else
        CalculatorState(show(result), Some(result), Some(op), true)
    else if op == "=" then
      s
    else
      s.(previousValue := Some(inputValue), operation := Some(op), waitingForNewValue := true)
  }

  /** After `=` nothing is pending, so pressing `=` again changes nothing. */
  lemma EqualsIsIdempotent(s: CalculatorState, show: Num -> string)
    ensures PerformOperation(PerformOperation(s, "=", show), "=", show) == PerformOperation(s, "=", show)
  {
    var t := PerformOperation(s, "=", show);
    assert !Resolvable(t);
  }

  /** With nothing to resolve, a second operator pressed straight after the
      first simply replaces it: the left operand stays the display's value. */
  lemma OperatorReplacesOperator(s: CalculatorState, op1: string, op2: string, show: Num -> string)
    requires !Resolvable(s)
    requires op1 != "=" && op2 != "="
    ensures PerformOperation(PerformOperation(s, op1, show), op2, show) == PerformOperation(s, op2, show)
  {
    var t := PerformOperation(s, op1, show);
    assert t.waitingForNewValue && t.display == s.display;
  }

  /** The unit scenario for the service: from display "5", `+`, then "3"
      typed, then `=` shows 8. */
  lemma AddFiveAndThree(show: Num -> string)
    requires show(Fin(8.0)) == "8"
    ensures
      var afterPlus := PerformOperation(CalculatorState("5", None, None, false), "+", show);
      var withSecondNumber := afterPlus.(display := "3", waitingForNewValue := false);
      PerformOperation(withSecondNumber, "=", show).display == "8"
  {
    ParseNatToStr(5);
    ParseNatToStr(3);
    assert NatToStr(5) == "5" && NatToStr(3) == "3";
  }
}

=== FILE: calculator_store.dfy ===
/** The calculator store: the service's transitions plus the decimal-point,
    clear and load-amount actions and the two display getters, all as pure
    functions of the calculator state. The open/closed panel flag is not
    part of this model. */
module CalculatorStore {
  import opened Wrappers
  import opened NumberText
  import opened CalculatorService
  import Money

  /** The state the store starts in and `clear` returns to. */
  const Initial: CalculatorState := CalculatorState("0", None, None, false)

  /** Pressing the decimal-point key: "0." while waiting, otherwise a '.'
      appended unless the display already has one. */
  function InputDecimal(s: CalculatorState): (r: CalculatorState)
    ensures r.previousValue == s.previousValue && r.operation == s.operation
    ensures !r.waitingForNewValue
    ensures '.' in r.display
    ensures s.waitingForNewValue ==> r.display == "0."
    ensures !s.waitingForNewValue && '.' !in s.display ==> r.display == s.display + "."
    ensures !s.waitingForNewValue && '.' in s.display ==> r == s
  {
    if s.waitingForNewValue then
      s.(display := "0.", waitingForNewValue := false)
    else if '.' !in s.display then
      assert (s.display + ".")[|s.display|] == '.';
      s.(display := s.display + ".")
    else
      s
  }

  /** A repeated decimal-point press is a no-op. */
  lemma InputDecimalIdempotent(s: CalculatorState)
    ensures InputDecimal(InputDecimal(s)) == InputDecimal(s)
  {
  }

  /** `clear` forgets everything: display "0", nothing pending, not waiting. */
  function Clear(s: CalculatorState): (r: CalculatorState)
    ensures r.display == "0" && r.previousValue.None? && r.operation.None? && !r.waitingForNewValue
  {
    Initial
  }

  /** Loading an amount shows it with two decimals and waits for a fresh
      entry; the pending operation is kept. Read back, the display is worth
      the amount rounded to the cent. */
  function LoadAmount(s: CalculatorState, amount: real): (r: CalculatorState)
    ensures r.display == ToFixed2(amount)
    ensures r.waitingForNewValue
    ensures r.previousValue == s.previousValue && r.operation == s.operation
    ensures amount >= 0.0 ==> ParseFloat(r.display) == Fin(Money.Round2(amount))
  {
    ParseToFixed2(amount);
    s.(display := ToFixed2(amount), waitingForNewValue := true)
  }

  /** The symbol the expression line uses for an operator. */
  function OperatorSymbol(op: string): (r: string)
    ensures op == "*" ==> r == "×"
    ensures op == "/" ==> r == "÷"
    ensures op != "*" && op != "/" ==> r == op
  {
    if op == "*" then "×" else if op == "/" then "÷" else op
  }

  /** True when the expression line has something to show. */
  predicate HasPendingOperation(s: CalculatorState) {
    s.previousValue.Some? && HasOperation(s)
  }

  /** The expression line: the left operand and operator symbol, followed
      by the display once a second operand is being typed; empty when no
      operation is pending. */
  function CurrentExpression(s: CalculatorState, show: Num -> string): (r: string)
    ensures r == "" <==> !HasPendingOperation(s)
    ensures HasPendingOperation(s) ==>
      var left := show(s.previousValue.value);
      |left| < |r| && r[..|left|] == left
    ensures HasPendingOperation(s) && !s.waitingForNewValue ==>
      |s.display| < |r| && r[|r| - |s.display|..] == s.display
    ensures HasPendingOperation(s) ==>
      var head := show(s.previousValue.value) + " " + OperatorSymbol(s.operation.value);
      |head| <= |r| && r[..|head|] == head
      && (s.waitingForNewValue ==> r == head)
      && (!s.waitingForNewValue ==> r[|head|..] == " " + s.display)
  {
    if HasPendingOperation(s) then
      var head := show(s.previousValue.value) + " " + OperatorSymbol(s.operation.value);
      assert (show(s.previousValue.value) + " ")[|show(s.previousValue.value)|] == ' ';
      if s.waitingForNewValue then head else head + " " + s.display
    else
      ""
  }

  /** The line shown while typing the second operand extends the line shown
      while waiting for it by exactly the typed display. */
  lemma ExpressionAddsTypedOperand(s: CalculatorState, show: Num -> string)
    requires HasPendingOperation(s)
    ensures CurrentExpression(s.(waitingForNewValue := false), show)
         == CurrentExpression(s.(waitingForNewValue := true), show) + " " + s.display
  {
  }

  /** A preview of `=`: present exactly when a pending operation can be
      resolved and the display reads as a number, and then it is the text
      `=` would put on the display. */
  function PartialResult(s: CalculatorState, show: Num -> string): (r: Option<string>)
    ensures r.Some? <==> Resolvable(s) && ParseFloat(s.display).Fin?
    ensures r.Some? ==> r.value == PerformOperation(s, "=", show).display
    ensures r.Some? ==> r.value == show(Calculate(s.previousValue.value, ParseFloat(s.display), s.operation.value))
  {
    if Resolvable(s) && ParseFloat(s.display).Fin? then
      Some(PerformOperation(s, "=", show).display)
    else
      None
  }

  // ---------------------------------------------------------------------
  // Key sequences

  /** One user action on the calculator. */
  datatype Key = Digit(n: nat) | Decimal | Operator(op: string) | ClearKey | Load(amount: real)

  function Press(s: CalculatorState, k: Key, show: Num -> string): CalculatorState {
    match k
    case Digit(n) => InputNumber(s, n)
    case Decimal => InputDecimal(s)
    case Operator(op) => PerformOperation(s, op, show)
    case ClearKey => Clear(s)
    case Load(amount) => LoadAmount(s, amount)
  }

  function PressAll(s: CalculatorState, keys: seq<Key>, show: Num -> string): CalculatorState
    decreases |keys|
  {
    if keys == [] then s else PressAll(Press(s, keys[0], show), keys[1..], show)
  }

  lemma {:induction false} PressAllAppend(s: CalculatorState, a: seq<Key>, b: seq<Key>, show: Num -> string)
    ensures PressAll(s, a + b, show) == PressAll(PressAll(s, a, show), b, show)
    decreases |a|
  {
    if a == [] {
      assert a + b == b;
    } else {
      assert (a + b)[0] == a[0];
      assert (a + b)[1..] == a[1..] + b;
      PressAllAppend(Press(s, a[0], show), a[1..], b, show);
    }
  }

  // ---------------------------------------------------------------------
  // Left-to-right chaining

  /** One `operator operand` pair of a chained calculation. */
  datatype Step = Step(op: string, operand: nat)

  /** An operator that chains: not `=`, and not the empty string (which the
      state would treat as no operation). */
  predicate Chains(st: Step) {
    st.op != "" && st.op != "="
  }

  /** The reference meaning of `first o1 n1 o2 n2 ...`: each operator is
      applied to the result so far, strictly left to right, with no
      precedence between operators. */
  function EvalLeftToRight(first: nat, steps: seq<Step>): Num
    decreases |steps|
  {
    if steps == [] then Fin(first as real)
    else
      var last := steps[|steps| - 1];
      Calculate(EvalLeftToRight(first, steps[..|steps| - 1]), Fin(last.operand as real), last.op)
  }

  /** The keys a user presses for `first o1 n1 o2 n2 ...`, one number key
      per operand. */
  function ChainKeys(first: nat, steps: seq<Step>): seq<Key>
    decreases |steps|
  {
    if steps == [] then [Digit(first)]
    else
      var last := steps[|steps| - 1];
      ChainKeys(first, steps[..|steps| - 1]) + [Operator(last.op), Digit(last.operand)]
  }

  lemma PressOperatorThenDigit(s: CalculatorState, op: string, n: nat, show: Num -> string)
    ensures PressAll(s, [Operator(op), Digit(n)], show) == InputNumber(PerformOperation(s, op, show), n)
  {
    var keys := [Operator(op), Digit(n)];
    var t := PerformOperation(s, op, show);
    assert keys[1..] == [Digit(n)];
    assert PressAll(s, keys, show) == PressAll(t, [Digit(n)], show);
    assert [Digit(n)][1..] == [];
    assert PressAll(t, [Digit(n)], show) == PressAll(InputNumber(t, n), [], show);
  }

  /** After the keys of a chain, the last operand is on the display and
      everything before it has been folded into the pending left operand. */
  lemma {:induction false} ChainState(first: nat, steps: seq<Step>, show: Num -> string)
    requires |steps| > 0
    requires forall i :: 0 <= i < |steps| ==> Chains(steps[i])
    ensures PressAll(Initial, ChainKeys(first, steps), show)
         == CalculatorState(
              NatToStr(steps[|steps| - 1].operand),
              Some(EvalLeftToRight(first, steps[..|steps| - 1])),
              Some(steps[|steps| - 1].op),
              false)
    decreases |steps|
  {
    var last := steps[|steps| - 1];
    var pre := steps[..|steps| - 1];
    assert Chains(last);
    PressAllAppend(Initial, ChainKeys(first, pre), [Operator(last.op), Digit(last.operand)], show);
    var mid := PressAll(Initial, ChainKeys(first, pre), show);
    PressOperatorThenDigit(mid, last.op, last.operand, show);
    if pre == [] {
      assert ChainKeys(first, pre) == [Digit(first)];
      assert [Digit(first)][1..] == [];
      assert mid == CalculatorState(NatToStr(first), None, None, false);
      ParseNatToStr(first);
    } else {
      ChainState(first, pre, show);
      var prev := pre[|pre| - 1];
      assert Chains(prev);
      assert Resolvable(mid);
      ParseNatToStr(prev.operand);
      assert EvalLeftToRight(first, pre)
          == Calculate(EvalLeftToRight(first, pre[..|pre| - 1]), Fin(prev.operand as real), prev.op);
    }
  }

  /** Chained operations evaluate left to right: pressing `=` after the
      keys of `first o1 n1 ... ok nk` shows the left-to-right value. */
  lemma ChainingIsLeftToRight(first: nat, steps: seq<Step>, show: Num -> string)
    requires |steps| > 0
    requires forall i :: 0 <= i < |steps| ==> Chains(steps[i])
    ensures PressAll(Initial, ChainKeys(first, steps) + [Operator("=")], show).display
         == show(EvalLeftToRight(first, steps))
  {
    ChainState(first, steps, show);
    PressAllAppend(Initial, ChainKeys(first, steps), [Operator("=")], show);
    ParseNatToStr(steps[|steps| - 1].operand);
  }

  /** `first o n =` shows the value of the single operation. */
  lemma OneOperation(first: nat, op: string, n: nat, show: Num -> string)
    requires Chains(Step(op, n))
    ensures PressAll(Initial, [Digit(first), Operator(op), Digit(n), Operator("=")], show).display
         == show(Calculate(Fin(first as real), Fin(n as real), op))
  {
    var steps := [Step(op, n)];
    assert steps[..0] == [];
    assert ChainKeys(first, steps) + [Operator("=")] == [Digit(first), Operator(op), Digit(n), Operator("=")];
    ChainingIsLeftToRight(first, steps, show);
  }

  /** `first o1 n1 o2 n2 =` shows the two operations applied left to right. */
  lemma TwoOperations(first: nat, op1: string, n1: nat, op2: string, n2: nat, show: Num -> string)
    requires Chains(Step(op1, n1)) && Chains(Step(op2, n2))
    ensures PressAll(Initial, [Digit(first), Operator(op1), Digit(n1), Operator(op2), Digit(n2), Operator("=")], show).display
         == show(Calculate(Calculate(Fin(first as real), Fin(n1 as real), op1), Fin(n2 as real), op2))
  {
    var steps := [Step(op1, n1), Step(op2, n2)];
    assert steps[..1] == [Step(op1, n1)];
    assert steps[..1][..0] == [];
    assert ChainKeys(first, steps[..1]) == [Digit(first), Operator(op1), Digit(n1)];
    assert ChainKeys(first, steps) == [Digit(first), Operator(op1), Digit(n1)] + [Operator(op2), Digit(n2)];
    assert EvalLeftToRight(first, steps[..1]) == Calculate(Fin(first as real), Fin(n1 as real), op1);
    assert ChainKeys(first, steps) + [Operator("=")]
        == [Digit(first), Operator(op1), Digit(n1), Operator(op2), Digit(n2), Operator("=")];
    ChainingIsLeftToRight(first, steps, show);
  }

  /** The store scenario: 5, `+`, 3, `=` shows 8. */
  lemma FivePlusThree(show: Num -> string)
    requires show(Fin(8.0)) == "8"
    ensures PressAll(Initial, [Digit(5), Operator("+"), Digit(3), Operator("=")], show).display == "8"
  {
    OneOperation(5, "+", 3, show);
  }

  /** 5 + 3 + 2 = shows 10: the first addition is resolved when the second
      `+` is pressed. */
  lemma FivePlusThreePlusTwo(show: Num -> string)
    ensures PressAll(Initial, [Digit(5), Operator("+"), Digit(3), Operator("+"), Digit(2), Operator("=")], show).display
         == show(Fin(10.0))
  {
    TwoOperations(5, "+", 3, "+", 2, show);
  }

  /** 5 / 0 = shows the dividend 5, not an error. */
  lemma DivideByZeroShowsDividend(show: Num -> string)
    ensures PressAll(Initial, [Digit(5), Operator("/"), Digit(0), Operator("=")], show).display == show(Fin(5.0))
  {
    OneOperation(5, "/", 0, show);
  }

  // ---------------------------------------------------------------------
  // Display invariants

  /** Text that reads as a finite number: it starts with a digit, possibly
      after a minus sign. */
  predicate Readable(d: string) {
    (|d| > 0 && IsDigit(d[0])) || (|d| > 1 && d[0] == '-' && IsDigit(d[1]))
  }

  lemma ReadableParses(d: string)
    requires Readable(d)
    ensures ParseFloat(d).Fin?
  {
    if d[0] == '-' {
      assert LeadingDigits(d[1..]) > 0;
    } else {
      assert LeadingDigits(d) > 0;
    }
  }

  /** The calculator's own invariant: the display reads as a finite number
      and the pending left operand, if any, is finite. */
  predicate WellFormed(s: CalculatorState) {
    Readable(s.display) && (s.previousValue.Some? ==> s.previousValue.value.Fin?)
  }

  /** Number formatting that always produces readable text for a finite
      number (JavaScript's `String` does: "8", "-2.5", "1e+21"). */
  ghost predicate ShowsReadably(show: Num -> string) {
    forall v: real :: Readable(show(Fin(v)))
  }

  lemma PressKeepsWellFormed(s: CalculatorState, k: Key, show: Num -> string)
    requires WellFormed(s) && ShowsReadably(show)
    ensures WellFormed(Press(s, k, show))
  {
    match k
    case Digit(n) =>
    case Decimal =>
    case Operator(op) =>
      ReadableParses(s.display);
      if Resolvable(s) {
        var v := Calculate(s.previousValue.value, ParseFloat(s.display), s.operation.value);
        assert Readable(show(Fin(v.value)));
      }
    case ClearKey =>
    case Load(amount) =>
      var t := ToFixed2(amount);
      var body := FixedBody(FixedCents(amount));
      assert IsDigit(body[0]);
      if amount < 0.0 {
        assert t == "-" + body;
        assert t[1] == body[0];
      } else {
        assert t == body;
      }
  }

  /** Whatever keys are pressed from the initial state, the display always
      reads as a finite number, as long as computed results are shown as
      readable text. */
  lemma {:induction false} DisplayAlwaysReadable(s: CalculatorState, keys: seq<Key>, show: Num -> string)
    requires WellFormed(s) && ShowsReadably(show)
    ensures WellFormed(PressAll(s, keys, show))
    ensures ParseFloat(PressAll(s, keys, show).display).Fin?
    decreases |keys|
  {
    if keys == [] {
      ReadableParses(s.display);
    } else {
      PressKeepsWellFormed(s, keys[0], show);
      DisplayAlwaysReadable(Press(s, keys[0], show), keys[1..], show);
    }
  }

  /** Whenever an operation is resolvable on a well-formed state, the
      preview is available. */
  lemma PreviewAvailable(s: CalculatorState, show: Num -> string)
    requires WellFormed(s)
    ensures PartialResult(s, show).Some? <==> Resolvable(s)
  {
    ReadableParses(s.display);
  }

  lemma AppendDigitsKeepsOneSeparator(a: string, b: string)
    requires AtMostOneSeparator(a) && AllDigits(b)
    ensures AtMostOneSeparator(a + b)
  {
    var s := a + b;
    forall i, j | 0 <= i < j < |s| && s[i] == '.'
      ensures s[j] != '.'
    {
      assert i < |a|;
      if j < |a| {
        assert s[j] == a[j];
      } else {
        assert s[j] == b[j - |a|];
      }
    }
  }

  lemma AppendSeparatorKeepsOne(a: string)
    requires '.' !in a
    ensures AtMostOneSeparator(a + ".")
  {
    var s := a + ".";
    assert forall i :: 0 <= i < |a| ==> s[i] != '.';
  }

  /** No key other than an operator can put a second '.' on the display;
      an operator only shows the text of a computed number. */
  lemma PressKeepsOneSeparator(s: CalculatorState, k: Key, show: Num -> string)
    requires AtMostOneSeparator(s.display)
    requires forall n: Num :: AtMostOneSeparator(show(n))
    ensures AtMostOneSeparator(Press(s, k, show).display)
  {
    match k
    case Digit(n) =>
      if !s.waitingForNewValue && s.display != "0" {
        AppendDigitsKeepsOneSeparator(s.display, NatToStr(n));
      }
    case Decimal =>
      if !s.waitingForNewValue && '.' !in s.display {
        AppendSeparatorKeepsOne(s.display);
      } else if s.waitingForNewValue {
        assert AtMostOneSeparator("0.");
      }
    case Operator(op) =>
      if Resolvable(s) {
        var v := Calculate(s.previousValue.value, ParseFloat(s.display), s.operation.value);
        assert AtMostOneSeparator(show(v));
      }
    case ClearKey =>
      assert AtMostOneSeparator("0");
    case Load(amount) =>
  }
}

=== FILE: money.dfy ===
/** Currency arithmetic of the checkout: amounts are exact reals, and the
    only rounding is the `Math.round(x * 100) / 100` idiom used by the
    order ledger and the payment service. */
module Money {

  /** A whole number of cents: 100 times the value is an integer. */
  predicate IsCents(x: real) {
    (x * 100.0).Floor as real == x * 100.0
  }

  /** `Math.round(x * 100) / 100`: the nearest cent, with halves rounded
      upwards (towards +infinity), exactly as `Math.round` does. The result
      is the unique whole-cent value in the half-open window
      (x - 0.005, x + 0.005], see Round2Unique. */
  function Round2(x: real): (r: real)
    ensures IsCents(r)
    ensures x - 0.005 < r <= x + 0.005
  {
    var n := (x * 100.0 + 0.5).Floor;
    assert (n as real / 100.0) * 100.0 == n as real;
    n as real / 100.0
  }

  /** Rounding has exactly one possible answer: any whole-cent value in the
      window (x - 0.005, x + 0.005] is Round2(x). */
  lemma Round2Unique(x: real, c: real)
    requires IsCents(c)
    requires x - 0.005 < c <= x + 0.005
    ensures c == Round2(x)
  {
    var k := (c * 100.0).Floor;
    assert k as real == c * 100.0;
    var y := x * 100.0 + 0.5;
    assert k as real <= y < k as real + 1.0;
    assert y.Floor == k;
  }

  /** The fixed points of Round2 are exactly the whole-cent values. */
  lemma Round2FixesCents(x: real)
    ensures Round2(x) == x <==> IsCents(x)
  {
    if IsCents(x) {
      Round2Unique(x, x);
    }
  }

  /** Rounding twice is rounding once. */
  lemma Round2Idempotent(x: real)
    ensures Round2(Round2(x)) == Round2(x)
  {
    Round2FixesCents(Round2(x));
  }

  /** Rounding never reverses an order between two amounts. */
  lemma Round2Monotone(x: real, y: real)
    requires x <= y
    ensures Round2(x) <= Round2(y)
  {
    var a := (x * 100.0 + 0.5).Floor;
    var b := (y * 100.0 + 0.5).Floor;
    assert x * 100.0 + 0.5 <= y * 100.0 + 0.5;
    assert a as real < b as real + 1.0;
    assert a <= b;
    assert Round2(x) == a as real / 100.0;
    assert Round2(y) == b as real / 100.0;
  }

  /** Sums and differences of whole-cent values are whole-cent values. */
  lemma CentsClosed(x: real, y: real)
    requires IsCents(x) && IsCents(y)
    ensures IsCents(x + y) && IsCents(x - y)
  {
    var a := (x * 100.0).Floor;
    var b := (y * 100.0).Floor;
    assert (x + y) * 100.0 == (a + b) as real;
    assert ((a + b) as real).Floor == a + b;
    assert (x - y) * 100.0 == (a - b) as real;
    assert ((a - b) as real).Floor == a - b;
  }

  /** `Math.max(0, x)`. */
  function Max0(x: real): (r: real)
    ensures r >= 0.0 && r >= x
    ensures r == x || r == 0.0
  {
    if x > 0.0 then x else 0.0
  }

  /** `Math.min(x, y)`. */
  function Min(x: real, y: real): (r: real)
    ensures r <= x && r <= y
    ensures r == x || r == y
  {
    if x <= y then x else y
  }
}

=== FILE: number_text.dfy ===
/** The number <-> text conversions the calculator relies on: `String(n)`
    for the digit keys, `parseFloat` for reading the display back and
    `toFixed(2)` for loading an amount. A JavaScript number is modelled as
    NaN or an exact real; infinities, signed zero and exponent notation are
    not part of this model. */
module NumberText {
  import Money

  /** A JavaScript number: `NaN` or a finite value. */
  datatype Num = NaN | Fin(value: real)

  function Negate(n: Num): Num {
    match n
    case NaN => NaN
    case Fin(v) => Fin(-v)
  }

  predicate IsDigit(c: char) {
    '0' <= c <= '9'
  }

  predicate AllDigits(s: string) {
    forall i :: 0 <= i < |s| ==> IsDigit(s[i])
  }

  function DigitValue(c: char): (d: nat)
    requires IsDigit(c)
    ensures d <= 9
  {
    c as int - '0' as int
  }

  function DigitChar(d: nat): (c: char)
    requires d <= 9
    ensures IsDigit(c) && DigitValue(c) == d
  {
    ('0' as int + d) as char
  }

  /** `String(n)` for a natural number: its decimal digits without leading
      zeros. */
  function NatToStr(n: nat): (s: string)
    ensures |s| > 0 && AllDigits(s)
    ensures n < 10 <==> |s| == 1
    decreases n
  {
    if n < 10 then [DigitChar(n)] else NatToStr(n / 10) + [DigitChar(n % 10)]
  }

  /** The value of a run of decimal digits, most significant first. */
  function DigitsValue(s: string): nat
    requires AllDigits(s)
  {
    if s == [] then 0 else DigitsValue(s[..|s| - 1]) * 10 + DigitValue(s[|s| - 1])
  }

  function Pow10(k: nat): (r: nat)
    ensures r > 0
  {
    if k == 0 then 1 else 10 * Pow10(k - 1)
  }

  /** Length of the longest prefix of `s` made of digits. */
  function LeadingDigits(s: string): (k: nat)
    ensures k <= |s|
    ensures forall i :: 0 <= i < k ==> IsDigit(s[i])
    ensures k < |s| ==> !IsDigit(s[k])
  {
    if s == [] || !IsDigit(s[0]) then 0 else 1 + LeadingDigits(s[1..])
  }

  /** `parseFloat` of an unsigned decimal: the longest prefix of the form
      digits [ '.' digits ] with at least one digit; NaN when there is none.
      Whatever follows the prefix is ignored, as in JavaScript. */
  function ParseUnsigned(s: string): (r: Num)
    ensures r.NaN? <==> !((|s| > 0 && IsDigit(s[0])) || (|s| > 1 && s[0] == '.' && IsDigit(s[1])))
    ensures r.Fin? ==> r.value >= 0.0
    ensures s != [] && AllDigits(s) ==> r == Fin(DigitsValue(s) as real)
  {
    AllDigitsPrefix(s);
    var i := LeadingDigits(s);
    if i < |s| && s[i] == '.' then
      var j := LeadingDigits(s[i + 1..]);
      if i == 0 && j == 0 then NaN
      else
        var frac := DigitsValue(s[i + 1..i + 1 + j]);
        NonNegativeQuotient(frac, Pow10(j));
        Fin(DigitsValue(s[..i]) as real + frac as real / Pow10(j) as real)
    else if i == 0 then NaN
    else Fin(DigitsValue(s[..i]) as real)
  }

  /** A natural number over a positive one is not negative. */
  lemma NonNegativeQuotient(a: nat, b: nat)
    requires b > 0
    ensures a as real / b as real >= 0.0
  {
  }

  /** Text starting with a digit carries no sign. */
  lemma ParseFloatOfDigitStart(s: string)
    requires |s| > 0 && IsDigit(s[0])
    ensures ParseFloat(s) == ParseUnsigned(s)
  {
  }

  lemma ParseFloatOfMinus(s: string)
    ensures ParseFloat("-" + s) == Negate(ParseUnsigned(s))
  {
    assert ("-" + s)[1..] == s;
  }

  /** A digit run is its own longest digit prefix. */
  lemma AllDigitsPrefix(s: string)
    ensures AllDigits(s) ==> LeadingDigits(s) == |s| && s[..LeadingDigits(s)] == s
  {
  }

  /** `parseFloat(s)` on text with an optional sign: NaN exactly when no
      digit starts the number, negative only after a '-', and a '-' in
      front negates what follows. */
  function ParseFloat(s: string): (r: Num)
    ensures r.Fin? && r.value < 0.0 ==> |s| > 0 && s[0] == '-'
    ensures |s| > 0 && (s[0] == '-' || s[0] == '+') ==> (r.NaN? <==> ParseUnsigned(s[1..]).NaN?)
    ensures |s| > 0 && s[0] == '-' && r.Fin? ==> r.value == -ParseUnsigned(s[1..]).value
    ensures s != [] && AllDigits(s) ==> r == Fin(DigitsValue(s) as real)
  {
    if |s| > 0 && s[0] == '-' then Negate(ParseUnsigned(s[1..]))
    else if |s| > 0 && s[0] == '+' then ParseUnsigned(s[1..])
    else ParseUnsigned(s)
  }

  function Abs(x: real): (r: real)
    ensures r >= 0.0 && (r == x || r == -x)
  {
    if x < 0.0 then -x else x
  }

  /** `x.toFixed(2)`: the sign when x is negative, the integer part, a
      '.', and exactly two fraction digits. The digits are those of the
      integer n nearest to 100 * |x|, the larger one on a tie. */
  function ToFixed2(x: real): (s: string)
    ensures |s| >= 4 && s[|s| - 3] == '.'
    ensures IsDigit(s[|s| - 2]) && IsDigit(s[|s| - 1])
    ensures forall i :: 0 <= i < |s| - 3 ==> IsDigit(s[i]) || (i == 0 && s[i] == '-')
    ensures s[0] == '-' <==> x < 0.0
    ensures x < 0.0 ==> IsDigit(s[1])
    ensures AtMostOneSeparator(s)
  {
    var n := FixedCents(x);
    var body := FixedBody(n);
    NoSeparatorThenOne(NatToStr(n / 100), [DigitChar(n % 100 / 10), DigitChar(n % 100 % 10)]);
    if x < 0.0 then
      assert AtMostOneSeparator("-" + body) by {
        SeparatorsAfterSign("-", body);
      }
      "-" + body
    else body
  }

  /** The integer nearest to 100 * |x|, the larger one on a tie. */
  function FixedCents(x: real): nat {
    var n := (Abs(x) * 100.0 + 0.5).Floor;
    assert n >= 0;
    n
  }

  /** The unsigned text of n hundredths: the integer part, '.', two digits. */
  function FixedBody(n: nat): string {
    NatToStr(n / 100) + ['.', DigitChar(n % 100 / 10), DigitChar(n % 100 % 10)]
  }

  /** No two '.' characters in the text. */
  predicate AtMostOneSeparator(s: string) {
    forall i, j :: 0 <= i < j < |s| && s[i] == '.' ==> s[j] != '.'
  }

  lemma NoSeparatorThenOne(a: string, b: string)
    requires AllDigits(a) && AllDigits(b)
    ensures AtMostOneSeparator(a + ['.'] + b)
    ensures AtMostOneSeparator(a + (['.'] + b))
  {
    assert a + ['.'] + b == a + (['.'] + b);
    var s := a + ['.'] + b;
    forall i, j | 0 <= i < j < |s| && s[i] == '.'
      ensures s[j] != '.'
    {
      assert i == |a|;
      assert s[j] == b[j - |a| - 1];
    }
  }

  lemma SeparatorsAfterSign(sign: string, body: string)
    requires AllDigits(sign) || sign == "-"
    requires AtMostOneSeparator(body)
    ensures AtMostOneSeparator(sign + body)
  {
    var s := sign + body;
    forall i, j | 0 <= i < j < |s| && s[i] == '.'
      ensures s[j] != '.'
    {
      assert i >= |sign|;
      assert s[i] == body[i - |sign|] && s[j] == body[j - |sign|];
    }
  }

  // ---------------------------------------------------------------------
  // Reading digits back

  lemma {:induction false} DigitsValueOfNatToStr(n: nat)
    ensures DigitsValue(NatToStr(n)) == n
    decreases n
  {
    var s := NatToStr(n);
    if n < 10 {
      assert s[..0] == [];
    } else {
      assert s[..|s| - 1] == NatToStr(n / 10);
      DigitsValueOfNatToStr(n / 10);
    }
  }

  lemma {:induction false} LeadingDigitsOfDigits(t: string)
    requires AllDigits(t)
    ensures LeadingDigits(t) == |t|
    decreases |t|
  {
    if t != [] {
      LeadingDigitsOfDigits(t[1..]);
    }
  }

  lemma {:induction false} LeadingDigitsStop(t: string, rest: string)
    requires AllDigits(t)
    requires |rest| > 0 && !IsDigit(rest[0])
    ensures LeadingDigits(t + rest) == |t|
    decreases |t|
  {
    if t == [] {
      assert t + rest == rest;
    } else {
      assert (t + rest)[1..] == t[1..] + rest;
      LeadingDigitsStop(t[1..], rest);
    }
  }

  /** `parseFloat(String(n)) == n` for every natural number. */
  lemma ParseNatToStr(n: nat)
    ensures ParseFloat(NatToStr(n)) == Fin(n as real)
  {
    var s := NatToStr(n);
    LeadingDigitsOfDigits(s);
    assert s[..|s|] == s;
    DigitsValueOfNatToStr(n);
  }

  /** Typing one more digit after an integer entry shifts its value one
      decimal place: "53" reads as 10 * 5 + 3. */
  lemma ParseAppendedDigit(t: string, d: nat)
    requires |t| > 0 && AllDigits(t)
    requires d <= 9
    ensures ParseFloat(t + NatToStr(d)) == Fin((10 * DigitsValue(t) + d) as real)
  {
    var s := t + NatToStr(d);
    assert NatToStr(d) == [DigitChar(d)];
    assert AllDigits(s);
    LeadingDigitsOfDigits(s);
    assert s[..|s|] == s;
    assert s[..|s| - 1] == t;
  }

  lemma TwoDigitsValue(a: nat, b: nat)
    requires a <= 9 && b <= 9
    ensures AllDigits([DigitChar(a), DigitChar(b)])
    ensures DigitsValue([DigitChar(a), DigitChar(b)]) == 10 * a + b
  {
    var s := [DigitChar(a), DigitChar(b)];
    assert s[..1] == [DigitChar(a)];
    assert [DigitChar(a)][..0] == [];
    assert DigitsValue([DigitChar(a)]) == a;
    assert DigitsValue(s) == DigitsValue(s[..1]) * 10 + DigitValue(s[1]);
  }

  /** The shape of `ParseUnsigned` on digits, a '.', and two digits. */
  lemma ParseUnsignedTwoDecimals(s: string, i: nat)
    requires i == LeadingDigits(s) && 0 < i < |s| && s[i] == '.'
    requires LeadingDigits(s[i + 1..]) == 2
    ensures ParseUnsigned(s) == Fin(DigitsValue(s[..i]) as real + DigitsValue(s[i + 1..i + 3]) as real / 100.0)
  {
    assert Pow10(2) == 100 by {
      assert Pow10(2) == 10 * Pow10(1);
    }
    OverHundred(DigitsValue(s[i + 1..i + 3]) as real, Pow10(2));
  }

  lemma OverHundred(x: real, p: int)
    requires p == 100
    ensures x / p as real == x / 100.0
  {
  }

  /** Digits, a '.', and two more digits read as the integer part plus
      the two-digit fraction over 100. */
  lemma ParseWithTwoDecimals(intText: string, frac: string)
    requires |intText| > 0 && AllDigits(intText)
    requires |frac| == 2 && AllDigits(frac)
    ensures ParseUnsigned(intText + (['.'] + frac))
         == Fin(DigitsValue(intText) as real + DigitsValue(frac) as real / 100.0)
  {
    var body := intText + (['.'] + frac);
    LeadingDigitsStop(intText, ['.'] + frac);
    var i := |intText|;
    assert body[..i] == intText;
    assert body[i + 1..] == frac;
    LeadingDigitsOfDigits(frac);
    assert body[i + 1..i + 3] == frac;
    ParseUnsignedTwoDecimals(body, i);
  }

  /** The unsigned text "q.ab" reads as q + ab / 100. */
  lemma ParseFixedBody(q: nat, a: nat, b: nat)
    requires a <= 9 && b <= 9
    ensures ParseUnsigned(NatToStr(q) + ['.', DigitChar(a), DigitChar(b)])
         == Fin(q as real + (10 * a + b) as real / 100.0)
  {
    var frac := [DigitChar(a), DigitChar(b)];
    assert ['.', DigitChar(a), DigitChar(b)] == ['.'] + frac;
    TwoDigitsValue(a, b);
    DigitsValueOfNatToStr(q);
    ParseWithTwoDecimals(NatToStr(q), frac);
  }

  /** The body `toFixed(2)` writes for n hundredths reads as n / 100. */
  lemma ParseFixedOf(n: nat)
    ensures ParseUnsigned(FixedBody(n)) == Fin(n as real / 100.0)
    ensures IsDigit(FixedBody(n)[0])
  {
    var q := n / 100;
    var a := n % 100 / 10;
    var b := n % 100 % 10;
    HundredthsDigits(n);
    ParseFixedBody(q, a, b);
    HundredthsValue(q, 10 * a + b, n);
  }

  /** n hundredths split into the integer part and two fraction digits. */
  lemma HundredthsDigits(n: nat)
    ensures n % 100 / 10 <= 9 && n % 100 % 10 <= 9
    ensures n == 100 * (n / 100) + 10 * (n % 100 / 10) + n % 100 % 10
  {
    var m := n % 100;
    assert n == 100 * (n / 100) + m;
    assert m == 10 * (m / 10) + m % 10;
  }

  lemma HundredthsValue(q: nat, r: nat, n: nat)
    requires n == 100 * q + r
    ensures q as real + r as real / 100.0 == n as real / 100.0
  {
  }

  /** The integer `toFixed(2)` prints is the magnitude rounded, in cents. */
  lemma RoundOfMagnitude(x: real)
    ensures Money.Round2(if x < 0.0 then -x else x) == FixedCents(x) as real / 100.0
  {
  }

  /** Reading back `x.toFixed(2)` gives x rounded to the cent: the text a
      loaded amount shows is worth exactly Round2 of that amount (of its
      magnitude, for a negative amount). */
  lemma ParseToFixed2(x: real)
    ensures ParseFloat(ToFixed2(x)) == Fin(if x < 0.0 then -Money.Round2(-x) else Money.Round2(x))
  {
    var n := FixedCents(x);
    var body := FixedBody(n);
    ParseFixedOf(n);
    RoundOfMagnitude(x);
    if x < 0.0 {
      assert ToFixed2(x) == "-" + body;
      ParseFloatOfMinus(body);
    } else {
      assert ToFixed2(x) == body;
      ParseFloatOfDigitStart(body);
    }
  }
}

=== FILE: order_store.dfy ===
/** The order ledger: line items and a flat tax rate, the subtotal, tax
    and total derived from them with cent rounding, and the item edits. */
module OrderStore {
  import opened Wrappers
  import opened Money
  import Seqs

  /** A line of the order; `total` is whatever the line was created or last
      updated with. Ids are natural numbers standing for the store's
      string ids. */
  datatype OrderItem = OrderItem(id: nat, name: string, quantity: real, price: real, total: real)

  datatype OrderState = OrderState(items: seq<OrderItem>, taxRate: real)

  /** The store's starting order: three lines and a 10% tax rate. */
  const Initial: OrderState := OrderState(
    [ OrderItem(1, "Coca Cola 600ml", 2.0, 2.50, 5.00),
      OrderItem(2, "Pan Integral", 1.0, 3.20, 3.20),
      OrderItem(3, "Leche Deslactosada", 1.0, 4.80, 4.80) ],
    0.10)

  /** The plain sum of the line totals. */
  function SumTotals(items: seq<OrderItem>): real
    decreases |items|
  {
    if items == [] then 0.0 else SumTotals(items[..|items| - 1]) + items[|items| - 1].total
  }

  /** The sum of the line totals, rounded to the cent; 0 for no lines. */
  function Subtotal(s: OrderState): (r: real)
    ensures IsCents(r)
    ensures SumTotals(s.items) - 0.005 < r <= SumTotals(s.items) + 0.005
    ensures s.items == [] ==> r == 0.0
  {
    if s.items == [] then
      Round2Unique(0.0, 0.0);
      Round2(0.0)
    else
      Round2(SumTotals(s.items))
  }

  /** The tax on the subtotal, rounded to the cent. */
  function Taxes(s: OrderState): (r: real)
    ensures IsCents(r)
    ensures Subtotal(s) * s.taxRate - 0.005 < r <= Subtotal(s) * s.taxRate + 0.005
  {
    Round2(Subtotal(s) * s.taxRate)
  }

  /** The amount due: subtotal plus taxes. Both are already whole cents, so
      the rounding of their sum changes nothing. */
  function Total(s: OrderState): (r: real)
    ensures IsCents(r)
    ensures r == Subtotal(s) + Taxes(s)
  {
    CentsClosed(Subtotal(s), Taxes(s));
    Round2FixesCents(Subtotal(s) + Taxes(s));
    Round2(Subtotal(s) + Taxes(s))
  }

  /** The three derived amounts are fixed points of the rounding. */
  lemma TotalsAreRounded(s: OrderState)
    ensures Round2(Subtotal(s)) == Subtotal(s)
    ensures Round2(Taxes(s)) == Taxes(s)
    ensures Round2(Total(s)) == Total(s)
    ensures Total(s) == Round2(Subtotal(s) + Taxes(s))
  {
    var st := Subtotal(s);
    var tx := Taxes(s);
    Round2FixesCents(st);
    Round2FixesCents(tx);
    Round2FixesCents(Total(s));
    assert Total(s) == Round2(st + tx);
  }

  /** A line's total: price times quantity, rounded to the cent. */
  function LineTotal(price: real, quantity: real): (r: real)
    ensures IsCents(r)
    ensures price * quantity - 0.005 < r <= price * quantity + 0.005
  {
    Round2(price * quantity)
  }

  /** The number of lines; zero exactly for an empty order. */
  function ItemCount(s: OrderState): (r: nat)
    ensures r == 0 <==> s.items == []
  {
    |s.items|
  }

  function IsEmpty(s: OrderState): (r: bool)
    ensures r <==> s.items == []
  {
    |s.items| == 0
  }

  /** The starting order: 5.00 + 3.20 + 4.80 = 13.00, tax 1.30, total 14.30. */
  lemma InitialTotals()
    ensures Subtotal(Initial) == 13.0
    ensures Taxes(Initial) == 1.3
    ensures Total(Initial) == 14.3
  {
    var items := Initial.items;
    assert items[..2][..1][..0] == [];
    assert items[..2][..1] == [items[0]];
    assert items[..2] == [items[0], items[1]];
    assert SumTotals(items[..2][..1]) == 5.0;
    assert SumTotals(items[..2]) == 8.2;
    assert SumTotals(items) == 13.0;
    assert IsCents(13.0) by {
      assert 13.0 * 100.0 == 1300 as real;
    }
    Round2Unique(13.0, 13.0);
    assert IsCents(1.3) by {
      assert 1.3 * 100.0 == 130 as real;
    }
    Round2Unique(1.3, 1.3);
  }

  // ---------------------------------------------------------------------
  // Edits

  /** Appends a line exactly as supplied, under a fresh id; nothing about
      the supplied quantity, price or total is checked. */
  function AddItem(s: OrderState, name: string, quantity: real, price: real, total: real, id: nat): (r: OrderState)
    ensures ItemCount(r) == ItemCount(s) + 1
    ensures r.items[..|s.items|] == s.items
    ensures r.items[|s.items|] == OrderItem(id, name, quantity, price, total)
    ensures r.taxRate == s.taxRate
    ensures SumTotals(r.items) == SumTotals(s.items) + total
  {
    var items := s.items + [OrderItem(id, name, quantity, price, total)];
    assert items[..|items| - 1] == s.items;
    s.(items := items)
  }

  function IdIs(id: nat): OrderItem -> bool {
    (item: OrderItem) => item.id == id
  }

  /** Removes the first line with the id; does nothing when there is none. */
  function RemoveItem(s: OrderState, id: nat): (r: OrderState)
    ensures r.taxRate == s.taxRate
    ensures (forall i :: 0 <= i < |s.items| ==> s.items[i].id != id) ==> r == s
    ensures forall k :: Seqs.IsFirst(s.items, IdIs(id), k) ==> r.items == s.items[..k] + s.items[k + 1..]
  {
    match Seqs.FirstIndex(s.items, IdIs(id))
    case None => s
    case Some(k) =>
      assert Seqs.IsFirst(s.items, IdIs(id), k);
      assert Seqs.RemoveAt(s.items, k) == s.items[..k] + s.items[k + 1..];
      s.(items := Seqs.RemoveAt(s.items, k))
  }

  /** Gives the first line with the id a new quantity and recomputes its
      total from its price; nothing happens when the id is absent or the
      quantity is not positive. The line keeps its place. */
  function UpdateItemQuantity(s: OrderState, id: nat, quantity: real): (r: OrderState)
    ensures r.taxRate == s.taxRate && |r.items| == |s.items|
    ensures quantity <= 0.0 || (forall i :: 0 <= i < |s.items| ==> s.items[i].id != id) ==> r == s
    ensures forall k :: Seqs.IsFirst(s.items, IdIs(id), k) && quantity > 0.0 ==>
              r.items == s.items[k := s.items[k].(quantity := quantity, total := LineTotal(s.items[k].price, quantity))]
  {
    match Seqs.FirstIndex(s.items, IdIs(id))
    case None => s
    case Some(k) =>
      assert Seqs.IsFirst(s.items, IdIs(id), k);
      assert forall k' :: Seqs.IsFirst(s.items, IdIs(id), k') ==> k' == k;
      if quantity > 0.0 then
        var item := s.items[k];
        s.(items := s.items[k := item.(quantity := quantity, total := LineTotal(item.price, quantity))])
      else
        s
  }

  /** Removes every line. */
  function ClearOrder(s: OrderState): (r: OrderState)
    ensures IsEmpty(r) && ItemCount(r) == 0
    ensures Subtotal(r) == 0.0 && r.taxRate == s.taxRate
  {
    s.(items := [])
  }

  /** Accepts a tax rate between 0 and 1 inclusive and ignores any other. */
  function SetTaxRate(s: OrderState, rate: real): (r: OrderState)
    ensures r.items == s.items
    ensures r.taxRate == rate <==> 0.0 <= rate <= 1.0 || rate == s.taxRate
    ensures !(0.0 <= rate <= 1.0) ==> r == s
  {
    if 0.0 <= rate <= 1.0 then s.(taxRate := rate) else s
  }

  // ---------------------------------------------------------------------
  // Line consistency

  /** A line whose quantity is positive and whose total is its price times
      quantity, rounded to the cent. */
  predicate ConsistentLine(item: OrderItem) {
    item.quantity > 0.0 && item.total == LineTotal(item.price, item.quantity)
  }

  predicate ConsistentLines(s: OrderState) {
    forall i :: 0 <= i < |s.items| ==> ConsistentLine(s.items[i])
  }

  /** Removing a line keeps the remaining lines consistent. */
  lemma RemoveItemKeepsLinesConsistent(s: OrderState, id: nat)
    requires ConsistentLines(s)
    ensures ConsistentLines(RemoveItem(s, id))
  {
    match Seqs.FirstIndex(s.items, IdIs(id))
    case None =>
    case Some(k) =>
      assert Seqs.IsFirst(s.items, IdIs(id), k);
      var r := RemoveItem(s, id).items;
      assert r == Seqs.RemoveAt(s.items, k);
  }

  /** A quantity update recomputes the total, so the line stays consistent. */
  lemma UpdateItemQuantityKeepsLinesConsistent(s: OrderState, id: nat, quantity: real)
    requires ConsistentLines(s)
    ensures ConsistentLines(UpdateItemQuantity(s, id, quantity))
  {
    match Seqs.FirstIndex(s.items, IdIs(id))
    case None =>
    case Some(k) =>
      assert Seqs.IsFirst(s.items, IdIs(id), k);
  }

  lemma AddItemKeepsLinesConsistent(s: OrderState, name: string, quantity: real, price: real, total: real, id: nat)
    requires ConsistentLines(s)
    ensures ConsistentLines(AddItem(s, name, quantity, price, total, id))
        <==> ConsistentLine(OrderItem(id, name, quantity, price, total))
  {
    var r := AddItem(s, name, quantity, price, total, id);
    assert r.items[|s.items|] == OrderItem(id, name, quantity, price, total);
  }

  /** `addItem` trusts its caller: a line with a negative quantity and a
      total unrelated to its price is accepted and counted in the subtotal. */
  lemma AddItemTrustsCaller()
    ensures
      var r := AddItem(OrderState([], 0.10), "Pan", -2.0, 1.0, 100.0, 7);
      && ItemCount(r) == 1
      && !ConsistentLines(r)
      && Subtotal(r) == 100.0
  {
    var r := AddItem(OrderState([], 0.10), "Pan", -2.0, 1.0, 100.0, 7);
    assert r.items[..0] == [];
    assert SumTotals(r.items) == 100.0;
    assert IsCents(100.0) by {
      assert 100.0 * 100.0 == 10000 as real;
    }
    Round2Unique(100.0, 100.0);
  }
}

=== FILE: payment.dfy ===
/** The payment entities: the closed set of payment methods, a recorded
    payment, and the per-method configuration record. The creation
    timestamp and the presentation-only colour and icon are not part of
    this model; ids are natural numbers standing for the generated UUIDs. */
module PaymentEntities {
  import opened Wrappers

  /** 'Efectivo' (cash), 'Cartera' (store credit), 'Transferencia' (bank
      transfer) and 'other'. */
  datatype PaymentMethod = Efectivo | Cartera | Transferencia | Other

  /** An immutable payment record; `reference` is absent when undefined. */
  datatype Payment = Payment(id: nat, paymentMethod: PaymentMethod, amount: real, reference: Option<string>)

  /** The static description of a method; an omitted `requiresReference`
      reads as false. */
  datatype PaymentMethodConfig = PaymentMethodConfig(id: PaymentMethod, displayLabel: string, requiresReference: bool)
}

=== FILE: payment_service.dfy ===
/** The payment service: the method table, payment creation with cent
    rounding, validation with every broken rule reported, totals and the
    grouping of payments by method. */
module PaymentService {
  import opened Wrappers
  import opened Money
  import opened PaymentEntities

  /** The four payment methods, in table order. Only a transfer needs a
      reference. */
  const PaymentMethods: seq<PaymentMethodConfig> := [
    PaymentMethodConfig(Efectivo, "Efectivo", false),
    PaymentMethodConfig(Transferencia, "Transferencia", true),
    PaymentMethodConfig(Cartera, "Cartera", false),
    PaymentMethodConfig(Other, "Otro", false)
  ]

  /** The largest amount a single payment may carry. */
  const MaxAmount: real := 999999.99

  /** `find` on a configuration table: the first entry for method `m`. */
  function FindConfig(table: seq<PaymentMethodConfig>, m: PaymentMethod): (r: Option<PaymentMethodConfig>)
    ensures r.Some? ==> r.value in table && r.value.id == m
    ensures r.None? <==> forall i :: 0 <= i < |table| ==> table[i].id != m
    decreases |table|
  {
    if table == [] then None
    else if table[0].id == m then Some(table[0])
    else FindConfig(table[1..], m)
  }

  /** Every method has an entry in the table, and the one that requires a
      reference is exactly the transfer. */
  function GetMethodConfig(m: PaymentMethod): (r: Option<PaymentMethodConfig>)
    ensures r.Some? && r.value.id == m && r.value in PaymentMethods
    ensures r.value.requiresReference <==> m == Transferencia
    ensures m == Transferencia ==> r.value.displayLabel == "Transferencia"
  {
    FindConfig(PaymentMethods, m)
  }

  /** A new payment: method, id and reference as given, the amount rounded
      to the nearest cent (halves up). */
  function CreatePayment(id: nat, m: PaymentMethod, amount: real, reference: Option<string>): (p: Payment)
    ensures p.id == id && p.paymentMethod == m && p.reference == reference
    ensures IsCents(p.amount)
    ensures amount - 0.005 < p.amount <= amount + 0.005
  {
    Payment(id, m, Round2(amount), reference)
  }

  /** The unit scenario: 10.555 is stored as 10.56. */
  lemma CreatePaymentRounds()
    ensures CreatePayment(1, Efectivo, 10.555, Some("ref")) == Payment(1, Efectivo, 10.56, Some("ref"))
  {
    var p := CreatePayment(1, Efectivo, 10.555, Some("ref"));
    assert IsCents(10.56) by {
      assert 10.56 * 100.0 == 1056 as real;
      assert (1056 as real).Floor == 1056;
    }
    Round2Unique(10.555, 10.56);
  }

  /** One broken validation rule. */
  datatype ValidationError = NonPositiveAmount | ExceedsMaximum | MissingReference(methodLabel: string)

  /** The position of a rule in the order the rules are checked. */
  function Rank(e: ValidationError): nat {
    match e
    case NonPositiveAmount => 0
    case ExceedsMaximum => 1
    case MissingReference(_) => 2
  }

  /** The message the source reports for each broken rule. */
  function Message(e: ValidationError): string {
    match e
    case NonPositiveAmount => "El monto debe ser mayor a 0"
    case ExceedsMaximum => "El monto excede el límite máximo"
    case MissingReference(methodLabel) => methodLabel + " requiere referencia"
  }

  function Messages(errors: seq<ValidationError>): (r: seq<string>)
    ensures |r| == |errors|
    ensures forall i :: 0 <= i < |errors| ==> r[i] == Message(errors[i])
  {
    seq(|errors|, i requires 0 <= i < |errors| => Message(errors[i]))
  }

  /** JavaScript falsiness of a reference: undefined or the empty string.
      A reference of spaces counts as present. */
  predicate ReferenceMissing(reference: Option<string>) {
    reference.None? || reference.value == ""
  }

  /** A payment that breaks none of the rules below: a positive amount
      within the maximum, and a reference when the method is a transfer. */
  predicate Acceptable(p: Payment) {
    0.0 < p.amount <= MaxAmount && !(p.paymentMethod == Transferencia && ReferenceMissing(p.reference))
  }

  /** All broken rules, in rule order: a non-positive amount, an amount
      above the maximum, and a missing reference for a method whose
      configuration requires one. */
  function ValidatePayment(p: Payment): (errors: seq<ValidationError>)
    ensures NonPositiveAmount in errors <==> p.amount <= 0.0
    ensures ExceedsMaximum in errors <==> p.amount > MaxAmount
    ensures MissingReference("Transferencia") in errors <==> p.paymentMethod == Transferencia && ReferenceMissing(p.reference)
    ensures forall i :: 0 <= i < |errors| && errors[i].MissingReference? ==> errors[i].methodLabel == "Transferencia"
    ensures errors == [] <==> Acceptable(p)
    ensures |errors| <= 3
    ensures forall i, j :: 0 <= i < j < |errors| ==> Rank(errors[i]) < Rank(errors[j])
  {
    var config := GetMethodConfig(p.paymentMethod);
    var low := if p.amount <= 0.0 then [NonPositiveAmount] else [];
    var high := if p.amount > MaxAmount then [ExceedsMaximum] else [];
    var reference := if config.Some? && config.value.requiresReference && ReferenceMissing(p.reference)
      then [MissingReference(config.value.displayLabel)] else [];
    var transfer := p.paymentMethod == Transferencia && ReferenceMissing(p.reference);
    assert reference == if transfer then [MissingReference("Transferencia")] else [];
    RuleErrors(p.amount, transfer, low, high, reference);
    RankedRules(low, high, reference);
    low + high + reference
  }

  /** The three rule lists, each empty or holding its one error, put
      together in rule order (`transfer` stands for a transfer without a
      reference). */
  lemma RuleErrors(amount: real, transfer: bool, low: seq<ValidationError>, high: seq<ValidationError>, reference: seq<ValidationError>)
    requires low == if amount <= 0.0 then [NonPositiveAmount] else []
    requires high == if amount > MaxAmount then [ExceedsMaximum] else []
    requires reference == if transfer then [MissingReference("Transferencia")] else []
    ensures var errors := low + high + reference;
      && (NonPositiveAmount in errors <==> amount <= 0.0)
      && (ExceedsMaximum in errors <==> amount > MaxAmount)
      && (MissingReference("Transferencia") in errors <==> transfer)
      && (forall i :: 0 <= i < |errors| && errors[i].MissingReference? ==> errors[i].methodLabel == "Transferencia")
      && (errors == [] <==> 0.0 < amount <= MaxAmount && !transfer)
      && |errors| <= 3
  {
    var errors := low + high + reference;
    var missing := MissingReference("Transferencia");
    if amount <= 0.0 {
      assert errors == if transfer then [NonPositiveAmount, missing] else [NonPositiveAmount];
    } else if amount > MaxAmount {
      assert errors == if transfer then [ExceedsMaximum, missing] else [ExceedsMaximum];
    } else {
      assert errors == if transfer then [missing] else [];
    }
  }

  /** At most one error per rule, rules concatenated in order: the ranks
      strictly increase along the list. */
  lemma RankedRules(low: seq<ValidationError>, high: seq<ValidationError>, reference: seq<ValidationError>)
    requires |low| <= 1 && |high| <= 1 && |reference| <= 1
    requires forall e :: e in low ==> Rank(e) == 0
    requires forall e :: e in high ==> Rank(e) == 1
    requires forall e :: e in reference ==> Rank(e) == 2
    ensures var errors := low + high + reference;
      forall i, j :: 0 <= i < j < |errors| ==> Rank(errors[i]) < Rank(errors[j])
  {
    var errors := low + high + reference;
    forall i, j | 0 <= i < j < |errors| ensures Rank(errors[i]) < Rank(errors[j]) {
      assert errors[i] == (low + high)[i];
      assert errors[j] == (high + reference)[j - |low|];
    }
  }

  lemma MessageListed(errors: seq<ValidationError>, e: ValidationError)
    requires e in errors
    ensures Message(e) in Messages(errors)
  {
    var i :| 0 <= i < |errors| && errors[i] == e;
    assert Messages(errors)[i] == Message(e);
  }

  /** The unit scenario for a negative amount (a transfer of -5). */
  lemma NegativeAmountRejected()
    ensures "El monto debe ser mayor a 0" in Messages(ValidatePayment(Payment(1, Transferencia, -5.0, None)))
  {
    var errors := ValidatePayment(Payment(1, Transferencia, -5.0, None));
    assert NonPositiveAmount in errors;
    MessageListed(errors, NonPositiveAmount);
  }

  /** The unit scenario for an amount of one million. */
  lemma HugeAmountRejected()
    ensures "El monto excede el límite máximo" in Messages(ValidatePayment(Payment(1, Transferencia, 1000000.0, None)))
  {
    var errors := ValidatePayment(Payment(1, Transferencia, 1000000.0, None));
    assert ExceedsMaximum in errors;
    MessageListed(errors, ExceedsMaximum);
  }

  /** The unit scenario for a transfer of 10 without a reference. */
  lemma TransferWithoutReferenceRejected()
    ensures "Transferencia requiere referencia" in Messages(ValidatePayment(Payment(1, Transferencia, 10.0, None)))
  {
    var errors := ValidatePayment(Payment(1, Transferencia, 10.0, None));
    assert MissingReference("Transferencia") in errors;
    MessageListed(errors, MissingReference("Transferencia"));
    TransferMessage();
  }

  lemma TransferMessage()
    ensures Message(MissingReference("Transferencia")) == "Transferencia requiere referencia"
  {
    var m := Message(MissingReference("Transferencia"));
    assert |m| == |"Transferencia requiere referencia"|;
    assert forall i :: 0 <= i < |m| ==> m[i] == "Transferencia requiere referencia"[i];
  }

  // ---------------------------------------------------------------------
  // Totals

  /** The plain sum of the amounts, left to right as `reduce` adds them. */
  function SumAmounts(ps: seq<Payment>): real
    decreases |ps|
  {
    if ps == [] then 0.0 else SumAmounts(ps[..|ps| - 1]) + ps[|ps| - 1].amount
  }

  predicate AllCents(ps: seq<Payment>) {
    forall i :: 0 <= i < |ps| ==> IsCents(ps[i].amount)
  }

  lemma {:induction false} SumAmountsAppend(a: seq<Payment>, b: seq<Payment>)
    ensures SumAmounts(a + b) == SumAmounts(a) + SumAmounts(b)
    decreases |b|
  {
    if b == [] {
      assert a + b == a;
    } else {
      assert (a + b)[..|a + b| - 1] == a + b[..|b| - 1];
      SumAmountsAppend(a, b[..|b| - 1]);
    }
  }

  lemma {:induction false} SumOfCents(ps: seq<Payment>)
    requires AllCents(ps)
    ensures IsCents(SumAmounts(ps))
    decreases |ps|
  {
    if ps == [] {
      assert (0.0 * 100.0).Floor == 0;
    } else {
      SumOfCents(ps[..|ps| - 1]);
      CentsClosed(SumAmounts(ps[..|ps| - 1]), ps[|ps| - 1].amount);
    }
  }

  /** The rounded total of a list of payments; when every amount is a
      whole number of cents, as recorded payments are, it is the exact sum. */
  function CalculateTotal(ps: seq<Payment>): (r: real)
    ensures IsCents(r)
    ensures SumAmounts(ps) - 0.005 < r <= SumAmounts(ps) + 0.005
    ensures ps == [] ==> r == 0.0
    ensures AllCents(ps) ==> r == SumAmounts(ps)
  {
    if AllCents(ps) then
      SumOfCents(ps);
      Round2FixesCents(SumAmounts(ps));
      Round2(SumAmounts(ps))
    else
      Round2(SumAmounts(ps))
  }

  // ---------------------------------------------------------------------
  // Grouping

  /** The payments of one m, in their original order. */
  function OfMethod(ps: seq<Payment>, m: PaymentMethod): (r: seq<Payment>)
    ensures |r| <= |ps|
    ensures forall i :: 0 <= i < |r| ==> r[i].paymentMethod == m
    ensures forall p :: p in r <==> p in ps && p.paymentMethod == m
    decreases |ps|
  {
    if ps == [] then []
    else
      var rest := OfMethod(ps[..|ps| - 1], m);
      assert forall p :: p in ps <==> p in ps[..|ps| - 1] || p == ps[|ps| - 1];
      if ps[|ps| - 1].paymentMethod == m then rest + [ps[|ps| - 1]] else rest
  }

  lemma {:induction false} OfMethodAppend(a: seq<Payment>, b: seq<Payment>, m: PaymentMethod)
    ensures OfMethod(a + b, m) == OfMethod(a, m) + OfMethod(b, m)
    decreases |b|
  {
    if b == [] {
      assert a + b == a;
    } else {
      assert (a + b)[..|a + b| - 1] == a + b[..|b| - 1];
      OfMethodAppend(a, b[..|b| - 1], m);
    }
  }

  /** The four groups together hold every payment exactly once. */
  lemma {:induction false} GroupSizesAddUp(ps: seq<Payment>)
    ensures |OfMethod(ps, Efectivo)| + |OfMethod(ps, Cartera)|
          + |OfMethod(ps, Transferencia)| + |OfMethod(ps, Other)| == |ps|
    decreases |ps|
  {
    if ps != [] {
      GroupSizesAddUp(ps[..|ps| - 1]);
    }
  }

  /** `groupByMethod`: a key for each method that has payments, holding
      exactly that method's payments in their original order. */
  function GroupByMethod(ps: seq<Payment>): (g: map<PaymentMethod, seq<Payment>>)
    ensures forall m :: m in g <==> OfMethod(ps, m) != []
    ensures forall m :: m in g ==> g[m] == OfMethod(ps, m)
    decreases |ps|
  {
    if ps == [] then map[]
    else
      var g := GroupByMethod(ps[..|ps| - 1]);
      var p := ps[|ps| - 1];
      var existing := if p.paymentMethod in g then g[p.paymentMethod] else [];
      g[p.paymentMethod := existing + [p]]
  }

  /** The unit scenario: two cash payments and one store-credit payment
      give groups of two and one. */
  lemma GroupScenario(p1: Payment, p2: Payment, p3: Payment)
    requires p1.paymentMethod == Efectivo && p2.paymentMethod == Cartera && p3.paymentMethod == Efectivo
    ensures Efectivo in GroupByMethod([p1, p2, p3]) && |GroupByMethod([p1, p2, p3])[Efectivo]| == 2
    ensures Cartera in GroupByMethod([p1, p2, p3]) && |GroupByMethod([p1, p2, p3])[Cartera]| == 1
    ensures Transferencia !in GroupByMethod([p1, p2, p3])
  {
    var ps := [p1, p2, p3];
    assert ps[..2] == [p1, p2];
    assert [p1, p2][..1] == [p1];
    assert [p1][..0] == [];
    assert OfMethod([p1], Cartera) == [] && OfMethod([p1], Transferencia) == [];
    assert OfMethod([p1, p2], Cartera) == [p2] && OfMethod([p1, p2], Transferencia) == [];
    assert OfMethod(ps, Efectivo) == [p1, p3];
    assert OfMethod(ps, Cartera) == [p2];
    assert OfMethod(ps, Transferencia) == [];
  }
}

=== FILE: payment_store.dfy ===
/** The payment allocator: the recorded payments, the method the next
    payment will use and a staged reference, with the allocation rules,
    the derived amounts and the removal operations. The order total is a
    parameter of every operation that reads it, in place of a call into
    the order ledger. A call that throws in the source returns `Failure`
    here and leaves no new state behind. */
module PaymentStore {
  import opened Wrappers
  import opened Money
  import opened PaymentEntities
  import opened PaymentService
  import Seqs
  import OrderStore

  datatype PaymentState = PaymentState(payments: seq<Payment>, activeMethod: Option<PaymentMethod>, reference: string)

  /** The store's starting state: no payments, no method, empty reference. */
  const Initial: PaymentState := PaymentState([], None, "")

  // ---------------------------------------------------------------------
  // Derived getters

  /** The rounded sum of the recorded payments. */
  function TotalAssigned(s: PaymentState): (r: real)
    ensures IsCents(r)
    ensures AllCents(s.payments) ==> r == SumAmounts(s.payments)
  {
    CalculateTotal(s.payments)
  }

  /** What is still owed, never negative. */
  function RemainingAmount(s: PaymentState, orderTotal: real): (r: real)
    ensures r >= 0.0 && r >= orderTotal - TotalAssigned(s)
    ensures r == 0.0 <==> TotalAssigned(s) >= orderTotal
    ensures r > 0.0 ==> r == orderTotal - TotalAssigned(s)
  {
    Max0(orderTotal - TotalAssigned(s))
  }

  /** Nothing is owed: the assigned total has reached the order total. */
  function IsPaymentComplete(s: PaymentState, orderTotal: real): (r: bool)
    ensures r <==> TotalAssigned(s) >= orderTotal
  {
    RemainingAmount(s, orderTotal) == 0.0
  }

  /** The amount paid with each method: all four methods are present, each
      with the rounded total of that method's payments (0 when it has none). */
  function PaymentsByMethod(s: PaymentState): (r: map<PaymentMethod, real>)
    ensures forall m: PaymentMethod :: m in r && r[m] == CalculateTotal(OfMethod(s.payments, m))
  {
    var grouped := GroupByMethod(s.payments);
    var r := map[Efectivo := GroupTotal(grouped, Efectivo), Cartera := GroupTotal(grouped, Cartera),
                 Transferencia := GroupTotal(grouped, Transferencia), Other := GroupTotal(grouped, Other)];
    EveryMethodTotalled(s.payments, r);
    r
  }

  /** The `calculateTotal` of a group, or the initial 0 when it is absent. */
  function GroupTotal(grouped: map<PaymentMethod, seq<Payment>>, m: PaymentMethod): real {
    if m in grouped then CalculateTotal(grouped[m]) else 0.0
  }

  lemma EveryMethodTotalled(ps: seq<Payment>, r: map<PaymentMethod, real>)
    requires Efectivo in r && r[Efectivo] == CalculateTotal(OfMethod(ps, Efectivo))
    requires Cartera in r && r[Cartera] == CalculateTotal(OfMethod(ps, Cartera))
    requires Transferencia in r && r[Transferencia] == CalculateTotal(OfMethod(ps, Transferencia))
    requires Other in r && r[Other] == CalculateTotal(OfMethod(ps, Other))
    ensures forall m: PaymentMethod :: m in r && r[m] == CalculateTotal(OfMethod(ps, m))
  {
    forall m: PaymentMethod ensures m in r && r[m] == CalculateTotal(OfMethod(ps, m)) {
      match m
      case Efectivo =>
      case Cartera =>
      case Transferencia =>
      case Other =>
    }
  }

  /** The configuration of the selected method, if one is selected. */
  function ActiveMethodConfig(s: PaymentState): (r: Option<PaymentMethodConfig>)
    ensures r.Some? <==> s.activeMethod.Some?
    ensures r.Some? ==> r.value.id == s.activeMethod.value && r.value in PaymentMethods
    ensures r.Some? ==> (r.value.requiresReference <==> r.value.id == Transferencia)
  {
    if s.activeMethod.Some? then GetMethodConfig(s.activeMethod.value) else None
  }

  /** The selected method's reference flag; false when nothing is selected. */
  function RequiresReference(s: PaymentState): (r: bool)
    ensures r <==> s.activeMethod == Some(Transferencia)
  {
    ActiveMethodConfig(s).Some? && ActiveMethodConfig(s).value.requiresReference
  }

  /** The characters `String.prototype.trim` strips: the ECMAScript white
      space and line terminator characters. */
  predicate IsWhitespace(c: char) {
    || c == '\t' || c == '\n' || c == '\U{000B}' || c == '\U{000C}' || c == '\r' || c == ' '
    || c == '\U{00A0}' || c == '\U{1680}' || ('\U{2000}' <= c <= '\U{200A}')
    || c == '\U{2028}' || c == '\U{2029}' || c == '\U{202F}' || c == '\U{205F}'
    || c == '\U{3000}' || c == '\U{FEFF}'
  }

  /** `text.trim().length > 0`: some character is not white space. */
  predicate HasVisibleText(text: string) {
    exists i :: 0 <= i < |text| && !IsWhitespace(text[i])
  }

  /** Whether the UI lets the user assign: a method is selected and, when
      that method requires a reference, the staged one is not blank. */
  function CanAssignPayment(s: PaymentState): (r: bool)
    ensures r <==> s.activeMethod.Some? && (s.activeMethod.value == Transferencia ==> HasVisibleText(s.reference))
  {
    s.activeMethod.Some? && (!RequiresReference(s) || HasVisibleText(s.reference))
  }

  // ---------------------------------------------------------------------
  // Actions

  /** Selecting a method (or none) always discards the staged reference. */
  function SetActiveMethod(s: PaymentState, m: Option<PaymentMethod>): (r: PaymentState)
    ensures r.activeMethod == m && r.reference == "" && r.payments == s.payments
  {
    s.(activeMethod := m, reference := "")
  }

  function SetReference(s: PaymentState, text: string): (r: PaymentState)
    ensures r.reference == text && r.activeMethod == s.activeMethod && r.payments == s.payments
  {
    s.(reference := text)
  }

  /** Why `assignPayment` threw. */
  datatype AssignError = NoMethodSelected | AmountNotPositive | ExceedsRemaining | Invalid(errors: seq<ValidationError>)

  function Join(parts: seq<string>, sep: string): string
    decreases |parts|
  {
    if parts == [] then "" else if |parts| == 1 then parts[0] else parts[0] + sep + Join(parts[1..], sep)
  }

  /** A joined list starts with its first part. */
  lemma {:induction false} JoinStartsWithFirst(parts: seq<string>, sep: string)
    requires parts != []
    ensures |parts[0]| <= |Join(parts, sep)| && Join(parts, sep)[..|parts[0]|] == parts[0]
  {
    if |parts| > 1 {
      assert Join(parts, sep) == parts[0] + (sep + Join(parts[1..], sep));
    }
  }

  /** The text of the thrown error: a fixed sentence for each of the three
      preconditions, and for failed validation the messages of the broken
      rules separated by ", ", beginning with the first one. */
  function AssignErrorMessage(e: AssignError): (r: string)
    ensures e == NoMethodSelected ==> r == "No hay método de pago seleccionado"
    ensures e == AmountNotPositive ==> r == "El monto debe ser mayor a 0"
    ensures e == ExceedsRemaining ==> r == "El monto excede lo que falta por pagar"
    ensures e.Invalid? ==> r == Join(Messages(e.errors), ", ")
    ensures e.Invalid? && |e.errors| == 1 ==> r == Message(e.errors[0])
    ensures e.Invalid? && e.errors != [] ==>
      |Message(e.errors[0])| <= |r| && r[..|Message(e.errors[0])|] == Message(e.errors[0])
  {
    match e
    case NoMethodSelected => "No hay método de pago seleccionado"
    case AmountNotPositive => "El monto debe ser mayor a 0"
    case ExceedsRemaining => "El monto excede lo que falta por pagar"
    case Invalid(errors) =>
      if errors == [] then "" else JoinStartsWithFirst(Messages(errors), ", "); Join(Messages(errors), ", ")
  }

  /** `customReference || reference || undefined`: the explicit reference
      if it is non-empty, else the staged one if non-empty, else none. */
  function FinalReference(custom: Option<string>, staged: string): (r: Option<string>)
    ensures r.None? || r.value != ""
    ensures r.None? <==> ReferenceMissing(custom) && staged == ""
    ensures !ReferenceMissing(custom) ==> r == custom
    ensures ReferenceMissing(custom) && staged != "" ==> r == Some(staged)
  {
    if custom.Some? && custom.value != "" then custom
    else if staged != "" then Some(staged)
    else None
  }

  /** The payment `assignPayment` would record for the selected method. */
  function PendingPayment(s: PaymentState, amount: real, customReference: Option<string>, id: nat): Payment
    requires s.activeMethod.Some?
  {
    CreatePayment(id, s.activeMethod.value, amount, FinalReference(customReference, s.reference))
  }

  /** Exactly the calls `assignPayment` accepts: a method is selected, the
      amount is positive and within what is owed, the amount rounded to the
      cent is positive and within the maximum, and a transfer carries some
      non-empty reference. */
  predicate Admissible(s: PaymentState, orderTotal: real, amount: real, customReference: Option<string>) {
    && s.activeMethod.Some?
    && 0.0 < amount <= RemainingAmount(s, orderTotal)
    && 0.0 < Round2(amount) <= MaxAmount
    && !(s.activeMethod.value == Transferencia && FinalReference(customReference, s.reference).None?)
  }

  /** `assignPayment(amount, customReference)`: the three preconditions in
      order, then validation of the new payment, and only then the append.
      A success clears the staged reference, and clears the selected
      method exactly when the order is now fully paid. */
  function AssignPayment(s: PaymentState, orderTotal: real, amount: real, customReference: Option<string>, id: nat)
    : (r: Result<PaymentState, AssignError>)
    ensures r.Success? <==> Admissible(s, orderTotal, amount, customReference)
    ensures s.activeMethod.None? ==> r == Failure(NoMethodSelected)
    ensures s.activeMethod.Some? && amount <= 0.0 ==> r == Failure(AmountNotPositive)
    ensures s.activeMethod.Some? && 0.0 < amount && amount > RemainingAmount(s, orderTotal) ==> r == Failure(ExceedsRemaining)
    ensures r.Failure? && r.error.Invalid? ==>
      s.activeMethod.Some? && r.error.errors == ValidatePayment(PendingPayment(s, amount, customReference, id)) != []
    ensures s.activeMethod.Some? && 0.0 < amount <= RemainingAmount(s, orderTotal)
            && !Admissible(s, orderTotal, amount, customReference) ==>
      r == Failure(Invalid(ValidatePayment(PendingPayment(s, amount, customReference, id))))
    ensures r.Success? ==>
      && |r.value.payments| == |s.payments| + 1
      && r.value.payments[..|s.payments|] == s.payments
      && r.value.payments[|s.payments|] == Payment(id, s.activeMethod.value, Round2(amount),
                                                   FinalReference(customReference, s.reference))
      && r.value.reference == ""
      && (r.value.activeMethod.None? <==> IsPaymentComplete(r.value, orderTotal))
      && (r.value.activeMethod.Some? ==> r.value.activeMethod == s.activeMethod)
  {
    if s.activeMethod.None? then
      Failure(NoMethodSelected)
    else if amount <= 0.0 then
      Failure(AmountNotPositive)
    else if amount > RemainingAmount(s, orderTotal) then
      Failure(ExceedsRemaining)
    else
      var payment := PendingPayment(s, amount, customReference, id);
      var errors := ValidatePayment(payment);
      if |errors| > 0 then
        Failure(Invalid(errors))
      else
        var payments := s.payments + [payment];
        assert payments[..|s.payments|] == s.payments;
        var next := PaymentState(payments, s.activeMethod, "");
        if IsPaymentComplete(next, orderTotal) then Success(next.(activeMethod := None)) else Success(next)
  }

  /** `removePayment(id)`: drops the first payment with the id, if any. */
  function RemovePayment(s: PaymentState, id: nat): (r: PaymentState)
    ensures r.activeMethod == s.activeMethod && r.reference == s.reference
    ensures (forall i :: 0 <= i < |s.payments| ==> s.payments[i].id != id) ==> r == s
    ensures forall k :: Seqs.IsFirst(s.payments, IdIs(id), k) ==> r.payments == s.payments[..k] + s.payments[k + 1..]
  {
    match Seqs.FirstIndex(s.payments, IdIs(id))
    case None => s
    case Some(k) =>
      assert Seqs.IsFirst(s.payments, IdIs(id), k);
      assert Seqs.RemoveAt(s.payments, k) == s.payments[..k] + s.payments[k + 1..];
      s.(payments := Seqs.RemoveAt(s.payments, k))
  }

  function IdIs(id: nat): Payment -> bool {
    (p: Payment) => p.id == id
  }

  /** The payments of every method but `m`, in their original order. */
  function ExceptMethod(ps: seq<Payment>, m: PaymentMethod): (r: seq<Payment>)
    ensures forall i :: 0 <= i < |r| ==> r[i].paymentMethod != m
    ensures forall p :: p in r <==> p in ps && p.paymentMethod != m
    decreases |ps|
  {
    if ps == [] then []
    else
      var rest := ExceptMethod(ps[..|ps| - 1], m);
      var last := ps[|ps| - 1];
      assert forall p :: p in ps <==> p in ps[..|ps| - 1] || p == last;
      if last.paymentMethod != m then rest + [last] else rest
  }

  lemma OfSingle(p: Payment, m: PaymentMethod)
    ensures OfMethod([p], m) == if p.paymentMethod == m then [p] else []
  {
    assert [p][..0] == [];
  }

  /** Filtering out `m` leaves every other method's payments as they were,
      and removes exactly the payments of `m`. */
  lemma {:induction false} ExceptMethodGroups(ps: seq<Payment>, m: PaymentMethod)
    ensures forall m' :: m' != m ==> OfMethod(ExceptMethod(ps, m), m') == OfMethod(ps, m')
    ensures |ExceptMethod(ps, m)| == |ps| - |OfMethod(ps, m)|
    decreases |ps|
  {
    if ps != [] {
      var init, last := ps[..|ps| - 1], ps[|ps| - 1];
      ExceptMethodGroups(init, m);
      var rest := ExceptMethod(init, m);
      assert ps == init + [last];
      forall m' ensures OfMethod(ps, m') == OfMethod(init, m') + OfMethod([last], m') {
        OfMethodAppend(init, [last], m');
      }
      forall m' ensures OfMethod(rest + [last], m') == OfMethod(rest, m') + OfMethod([last], m') {
        OfMethodAppend(rest, [last], m');
      }
      forall m' ensures OfMethod([last], m') == if last.paymentMethod == m' then [last] else [] {
        OfSingle(last, m');
      }
    }
  }

  /** How many of the payments are not of method `m`. */
  function CountOther(ps: seq<Payment>, m: PaymentMethod): nat
    decreases |ps|
  {
    if ps == [] then 0 else CountOther(ps[..|ps| - 1], m) + (if ps[|ps| - 1].paymentMethod != m then 1 else 0)
  }

  lemma {:induction false} ExceptMethodLength(ps: seq<Payment>, m: PaymentMethod)
    ensures |ExceptMethod(ps, m)| == CountOther(ps, m)
    decreases |ps|
  {
    if ps != [] {
      ExceptMethodLength(ps[..|ps| - 1], m);
    }
  }

  /** Filtering a concatenation filters each part. */
  lemma {:induction false} ExceptMethodAppend(a: seq<Payment>, b: seq<Payment>, m: PaymentMethod)
    ensures ExceptMethod(a + b, m) == ExceptMethod(a, m) + ExceptMethod(b, m)
    decreases |b|
  {
    if b == [] {
      assert a + b == a;
    } else {
      var init := b[..|b| - 1];
      assert (a + b)[..|a + b| - 1] == a + init;
      assert (a + b)[|a + b| - 1] == b[|b| - 1];
      ExceptMethodAppend(a, init, m);
    }
  }

  /** A payment of another method lands right after the kept payments
      that preceded it. */
  lemma ExceptMethodPlaces(ps: seq<Payment>, m: PaymentMethod, i: nat)
    requires i < |ps| && ps[i].paymentMethod != m
    ensures CountOther(ps[..i], m) < |ExceptMethod(ps, m)|
    ensures ExceptMethod(ps, m)[CountOther(ps[..i], m)] == ps[i]
  {
    var before, tail := ps[..i], ps[i..];
    assert ps == before + tail;
    ExceptMethodAppend(before, tail, m);
    ExceptMethodLength(before, m);
    var kept := ExceptMethod(before, m);
    ExceptMethodHead(tail, m);
    assert ExceptMethod(ps, m) == kept + ExceptMethod(tail, m);
  }

  /** A sequence that starts with a payment of another method keeps it
      first. */
  lemma ExceptMethodHead(ps: seq<Payment>, m: PaymentMethod)
    requires ps != [] && ps[0].paymentMethod != m
    ensures ExceptMethod(ps, m) != [] && ExceptMethod(ps, m)[0] == ps[0]
  {
    var head, rest := [ps[0]], ps[1..];
    assert ps == head + rest;
    ExceptMethodAppend(head, rest, m);
    assert head[..0] == [];
    assert ExceptMethod(head, m) == head;
  }

  lemma ExceptMethodPlacesAll(ps: seq<Payment>, m: PaymentMethod)
    ensures forall i :: 0 <= i < |ps| && ps[i].paymentMethod != m ==>
      CountOther(ps[..i], m) < |ExceptMethod(ps, m)| && ExceptMethod(ps, m)[CountOther(ps[..i], m)] == ps[i]
  {
    forall i | 0 <= i < |ps| && ps[i].paymentMethod != m
      ensures CountOther(ps[..i], m) < |ExceptMethod(ps, m)| && ExceptMethod(ps, m)[CountOther(ps[..i], m)] == ps[i]
    {
      ExceptMethodPlaces(ps, m, i);
    }
  }

  /** `removePaymentsByMethod(m)`: no payment of `m` is left, and the
      payments of every other method are kept, in their original order:
      the one at position i moves to the number of kept payments before
      it, and there are no others. */
  function RemovePaymentsByMethod(s: PaymentState, m: PaymentMethod): (r: PaymentState)
    ensures r.activeMethod == s.activeMethod && r.reference == s.reference
    ensures forall i :: 0 <= i < |r.payments| ==> r.payments[i].paymentMethod != m
    ensures forall m' :: m' != m ==> OfMethod(r.payments, m') == OfMethod(s.payments, m')
    ensures |r.payments| == |s.payments| - |OfMethod(s.payments, m)| == CountOther(s.payments, m)
    ensures forall i :: 0 <= i < |s.payments| && s.payments[i].paymentMethod != m ==>
      CountOther(s.payments[..i], m) < |r.payments| && r.payments[CountOther(s.payments[..i], m)] == s.payments[i]
  {
    ExceptMethodGroups(s.payments, m);
    ExceptMethodLength(s.payments, m);
    ExceptMethodPlacesAll(s.payments, m);
    s.(payments := ExceptMethod(s.payments, m))
  }

  /** `clearAllPayments`: back to the starting state. */
  function ClearAllPayments(s: PaymentState): (r: PaymentState)
    ensures r.payments == [] && r.activeMethod.None? && r.reference == ""
  {
    Initial
  }

  /** `assignRemainingAmount`: pays everything still owed with the selected
      method, or does nothing when no method is selected or nothing is owed. */
  function AssignRemainingAmount(s: PaymentState, orderTotal: real, id: nat): (r: Result<PaymentState, AssignError>)
    ensures !(RemainingAmount(s, orderTotal) > 0.0 && s.activeMethod.Some?) ==> r == Success(s)
    ensures RemainingAmount(s, orderTotal) > 0.0 && s.activeMethod.Some? ==>
      r == AssignPayment(s, orderTotal, RemainingAmount(s, orderTotal), None, id)
  {
    if RemainingAmount(s, orderTotal) > 0.0 && s.activeMethod.Some? then
      AssignPayment(s, orderTotal, RemainingAmount(s, orderTotal), None, id)
    else
      Success(s)
  }

  /** The shared shape of the half and quarter allocators: the order total
      divided by `parts`, rounded to the cent and capped at what is owed. */
  function AssignShare(s: PaymentState, orderTotal: real, parts: real, id: nat): (r: Result<PaymentState, AssignError>)
    requires parts > 0.0
    ensures !(Round2(orderTotal / parts) > 0.0 && s.activeMethod.Some?) ==> r == Success(s)
    ensures Round2(orderTotal / parts) > 0.0 && s.activeMethod.Some? ==>
      r == AssignPayment(s, orderTotal, Min(Round2(orderTotal / parts), RemainingAmount(s, orderTotal)), None, id)
  {
    var share := Round2(orderTotal / parts);
    if share > 0.0 && s.activeMethod.Some? then
      AssignPayment(s, orderTotal, Min(share, RemainingAmount(s, orderTotal)), None, id)
    else
      Success(s)
  }

  /** `assignHalfAmount`: half the order total, to the cent, capped at
      what is owed; nothing happens without a method or a positive half. */
  function AssignHalfAmount(s: PaymentState, orderTotal: real, id: nat): (r: Result<PaymentState, AssignError>)
    ensures s.activeMethod.None? || Round2(orderTotal / 2.0) <= 0.0 ==> r == Success(s)
    ensures s.activeMethod.Some? && Round2(orderTotal / 2.0) > 0.0 ==>
      r == AssignPayment(s, orderTotal, Min(Round2(orderTotal / 2.0), RemainingAmount(s, orderTotal)), None, id)
  {
    AssignShare(s, orderTotal, 2.0, id)
  }

  /** `assignQuarterAmount`: the same with a quarter of the total. */
  function AssignQuarterAmount(s: PaymentState, orderTotal: real, id: nat): (r: Result<PaymentState, AssignError>)
    ensures s.activeMethod.None? || Round2(orderTotal / 4.0) <= 0.0 ==> r == Success(s)
    ensures s.activeMethod.Some? && Round2(orderTotal / 4.0) > 0.0 ==>
      r == AssignPayment(s, orderTotal, Min(Round2(orderTotal / 4.0), RemainingAmount(s, orderTotal)), None, id)
  {
    AssignShare(s, orderTotal, 4.0, id)
  }

  // ---------------------------------------------------------------------
  // Invariant: the store never records more than the order total

  /** A payment as `assignPayment` records it: a whole number of cents
      that passes validation. */
  predicate Recorded(p: Payment) {
    IsCents(p.amount) && Acceptable(p)
  }

  /** Every recorded payment is valid and the payments add up to at most
      the order total (or to nothing when the total is not positive). */
  predicate Consistent(s: PaymentState, orderTotal: real) {
    && (forall p :: p in s.payments ==> Recorded(p))
    && SumAmounts(s.payments) <= Max0(orderTotal)
  }

  lemma RecordedAreCents(ps: seq<Payment>)
    requires forall p :: p in ps ==> Recorded(p)
    ensures AllCents(ps)
  {
    forall i | 0 <= i < |ps| ensures IsCents(ps[i].amount) {
      assert ps[i] in ps;
    }
  }

  /** Valid payments are positive, so a non-empty list of them has a
      positive sum. */
  lemma {:induction false} RecordedSumPositive(ps: seq<Payment>)
    requires forall p :: p in ps ==> Recorded(p)
    requires ps != []
    ensures SumAmounts(ps) > 0.0
    decreases |ps|
  {
    var init, last := ps[..|ps| - 1], ps[|ps| - 1];
    assert last in ps;
    assert last.amount > 0.0;
    if init != [] {
      assert forall p :: p in init ==> p in ps;
      RecordedSumPositive(init);
    }
  }

  /** Under the invariant the assigned total is the exact sum; for a
      non-negative total what remains is the total minus it, for a
      negative one nothing remains, and when the total is not positive
      nothing has been paid at all. */
  lemma {:induction false} ConsistentAmounts(s: PaymentState, orderTotal: real)
    requires Consistent(s, orderTotal)
    ensures TotalAssigned(s) == SumAmounts(s.payments)
    ensures orderTotal >= 0.0 ==> RemainingAmount(s, orderTotal) == orderTotal - TotalAssigned(s)
    ensures orderTotal < 0.0 ==> RemainingAmount(s, orderTotal) == 0.0
    ensures orderTotal <= 0.0 ==> s.payments == []
  {
    RecordedAreCents(s.payments);
    if orderTotal <= 0.0 && s.payments != [] {
      RecordedSumPositive(s.payments);
    }
  }

  lemma {:induction false} AssignKeepsConsistent(s: PaymentState, orderTotal: real, amount: real,
                                                 customReference: Option<string>, id: nat)
    requires IsCents(orderTotal) && Consistent(s, orderTotal)
    requires AssignPayment(s, orderTotal, amount, customReference, id).Success?
    ensures Consistent(AssignPayment(s, orderTotal, amount, customReference, id).value, orderTotal)
  {
    var next := AssignPayment(s, orderTotal, amount, customReference, id).value;
    var p := next.payments[|s.payments|];
    AssignAppendsRecorded(s, orderTotal, amount, customReference, id);
    RoundedFits(orderTotal, TotalAssigned(s), amount);
    RecordedAreCents(s.payments);
    AppendKeepsConsistent(s, next, p, orderTotal);
  }

  /** An amount within what is owed still fits once rounded to the cent,
      because what is owed is itself whole cents. */
  lemma RoundedFits(total: real, paid: real, amount: real)
    requires IsCents(total) && IsCents(paid) && amount <= total - paid
    ensures Round2(amount) <= total - paid
  {
    CentsClosed(total, paid);
    Round2Monotone(amount, total - paid);
    Round2FixesCents(total - paid);
  }

  /** What a successful assignment records: one valid payment of the
      rounded amount, for an amount that is positive and within what is
      owed. */
  lemma AssignAppendsRecorded(s: PaymentState, orderTotal: real, amount: real,
                              customReference: Option<string>, id: nat)
    requires AssignPayment(s, orderTotal, amount, customReference, id).Success?
    ensures var next := AssignPayment(s, orderTotal, amount, customReference, id).value;
      && next.payments == s.payments + [next.payments[|s.payments|]]
      && next.payments[|s.payments|].amount == Round2(amount)
      && Recorded(next.payments[|s.payments|])
      && 0.0 < amount <= RemainingAmount(s, orderTotal)
      && RemainingAmount(s, orderTotal) == orderTotal - TotalAssigned(s)
  {
    var next := AssignPayment(s, orderTotal, amount, customReference, id).value;
    assert Admissible(s, orderTotal, amount, customReference);
    assert next.payments == s.payments + [next.payments[|s.payments|]];
  }

  /** Appending a valid payment that fits in what remains keeps the
      invariant. */
  lemma AppendKeepsConsistent(s: PaymentState, t: PaymentState, p: Payment, orderTotal: real)
    requires Consistent(s, orderTotal) && AllCents(s.payments)
    requires t.payments == s.payments + [p]
    requires Recorded(p) && p.amount <= RemainingAmount(s, orderTotal)
    requires RemainingAmount(s, orderTotal) == orderTotal - TotalAssigned(s)
    ensures Consistent(t, orderTotal)
  {
    assert (s.payments + [p])[..|s.payments|] == s.payments;
    assert SumAmounts(t.payments) == TotalAssigned(s) + p.amount;
  }

  lemma SumSingle(p: Payment)
    ensures SumAmounts([p]) == p.amount
  {
    assert [p][..0] == [];
  }

  /** Removing one element takes exactly its amount off the sum. */
  lemma SumWithout(ps: seq<Payment>, k: nat)
    requires k < |ps|
    ensures SumAmounts(ps[..k] + ps[k + 1..]) == SumAmounts(ps) - ps[k].amount
  {
    var front, after := ps[..k + 1], ps[k + 1..];
    assert front[..k] == ps[..k];
    assert SumAmounts(front) == SumAmounts(ps[..k]) + ps[k].amount;
    assert front + after == ps;
    SumAmountsAppend(front, after);
    SumAmountsAppend(ps[..k], after);
  }

  lemma {:induction false} RemovePaymentKeepsConsistent(s: PaymentState, orderTotal: real, id: nat)
    requires Consistent(s, orderTotal)
    ensures Consistent(RemovePayment(s, id), orderTotal)
  {
    match Seqs.FirstIndex(s.payments, IdIs(id))
    case None =>
    case Some(k) =>
      assert Seqs.IsFirst(s.payments, IdIs(id), k);
      var rest := s.payments[..k] + s.payments[k + 1..];
      assert s.payments[k] in s.payments;
      SumWithout(s.payments, k);
      forall p | p in rest ensures Recorded(p) {
        assert p in s.payments[..k] || p in s.payments[k + 1..];
      }
  }

  /** Dropping payments of positive amount never raises the sum. */
  lemma {:induction false} ExceptMethodSum(ps: seq<Payment>, m: PaymentMethod)
    requires forall p :: p in ps ==> p.amount > 0.0
    ensures SumAmounts(ExceptMethod(ps, m)) <= SumAmounts(ps)
    decreases |ps|
  {
    if ps != [] {
      var init, last := ps[..|ps| - 1], ps[|ps| - 1];
      assert forall p :: p in init ==> p in ps;
      ExceptMethodSum(init, m);
      var rest := ExceptMethod(init, m);
      assert last in ps;
      assert SumAmounts(ps) == SumAmounts(init) + last.amount;
      if last.paymentMethod != m {
        assert ExceptMethod(ps, m) == rest + [last];
        SumAmountsAppend(rest, [last]);
        SumSingle(last);
      } else {
        assert ExceptMethod(ps, m) == rest;
      }
    }
  }

  lemma {:induction false} RemovePaymentsByMethodKeepsConsistent(s: PaymentState, orderTotal: real, m: PaymentMethod)
    requires Consistent(s, orderTotal)
    ensures Consistent(RemovePaymentsByMethod(s, m), orderTotal)
  {
    forall p | p in s.payments ensures p.amount > 0.0 {
      assert Recorded(p);
    }
    ExceptMethodSum(s.payments, m);
  }

  /** One call into the store. The allocators take the id the new payment
      would receive. */
  datatype PaymentAction =
    | SelectMethod(choice: Option<PaymentMethod>)
    | TypeReference(text: string)
    | Assign(amount: real, customReference: Option<string>, id: nat)
    | Remove(id: nat)
    | RemoveMethod(m: PaymentMethod)
    | ClearAll
    | AssignRemaining(id: nat)
    | AssignHalf(id: nat)
    | AssignQuarter(id: nat)

  /** The state after one call; a call that throws leaves the state as it was. */
  function Apply(s: PaymentState, orderTotal: real, a: PaymentAction): PaymentState {
    var r := match a
      case SelectMethod(m) => Success(SetActiveMethod(s, m))
      case TypeReference(text) => Success(SetReference(s, text))
      case Assign(amount, customReference, id) => AssignPayment(s, orderTotal, amount, customReference, id)
      case Remove(id) => Success(RemovePayment(s, id))
      case RemoveMethod(m) => Success(RemovePaymentsByMethod(s, m))
      case ClearAll => Success(ClearAllPayments(s))
      case AssignRemaining(id) => AssignRemainingAmount(s, orderTotal, id)
      case AssignHalf(id) => AssignHalfAmount(s, orderTotal, id)
      case AssignQuarter(id) => AssignQuarterAmount(s, orderTotal, id);
    if r.Success? then r.value else s
  }

  function Replay(s: PaymentState, orderTotal: real, actions: seq<PaymentAction>): PaymentState
    decreases |actions|
  {
    if actions == [] then s else Replay(Apply(s, orderTotal, actions[0]), orderTotal, actions[1..])
  }

  lemma {:induction false} ApplyKeepsConsistent(s: PaymentState, orderTotal: real, a: PaymentAction)
    requires IsCents(orderTotal) && Consistent(s, orderTotal)
    ensures Consistent(Apply(s, orderTotal, a), orderTotal)
  {
    match a
    case SelectMethod(m) =>
    case TypeReference(text) =>
    case Assign(amount, customReference, id) => AssignResultKeepsConsistent(s, orderTotal, amount, customReference, id);
    case Remove(id) => RemovePaymentKeepsConsistent(s, orderTotal, id);
    case RemoveMethod(m) => RemovePaymentsByMethodKeepsConsistent(s, orderTotal, m);
    case ClearAll =>
    case AssignRemaining(id) =>
      if RemainingAmount(s, orderTotal) > 0.0 && s.activeMethod.Some? {
        AssignResultKeepsConsistent(s, orderTotal, RemainingAmount(s, orderTotal), None, id);
      }
    case AssignHalf(id) => ShareKeepsConsistent(s, orderTotal, 2.0, id);
    case AssignQuarter(id) => ShareKeepsConsistent(s, orderTotal, 4.0, id);
  }

  /** A call to `assignPayment` either fails and leaves the store as it was,
      or succeeds and keeps the invariant. */
  lemma AssignResultKeepsConsistent(s: PaymentState, orderTotal: real, amount: real, customReference: Option<string>, id: nat)
    requires IsCents(orderTotal) && Consistent(s, orderTotal)
    ensures var r := AssignPayment(s, orderTotal, amount, customReference, id);
      Consistent(if r.Success? then r.value else s, orderTotal)
  {
    if AssignPayment(s, orderTotal, amount, customReference, id).Success? {
      AssignKeepsConsistent(s, orderTotal, amount, customReference, id);
    }
  }

  /** The same for the half and quarter shortcuts. */
  lemma ShareKeepsConsistent(s: PaymentState, orderTotal: real, parts: real, id: nat)
    requires parts > 0.0 && IsCents(orderTotal) && Consistent(s, orderTotal)
    ensures var r := AssignShare(s, orderTotal, parts, id);
      Consistent(if r.Success? then r.value else s, orderTotal)
  {
    var share := Round2(orderTotal / parts);
    if share > 0.0 && s.activeMethod.Some? {
      AssignResultKeepsConsistent(s, orderTotal, Min(share, RemainingAmount(s, orderTotal)), None, id);
    }
  }

  lemma {:induction false} ReplayKeepsConsistent(s: PaymentState, orderTotal: real, actions: seq<PaymentAction>)
    requires IsCents(orderTotal) && Consistent(s, orderTotal)
    ensures Consistent(Replay(s, orderTotal, actions), orderTotal)
    decreases |actions|
  {
    if actions != [] {
      ApplyKeepsConsistent(s, orderTotal, actions[0]);
      ReplayKeepsConsistent(Apply(s, orderTotal, actions[0]), orderTotal, actions[1..]);
    }
  }

  /** Whatever the sequence of calls, starting from an empty store and with
      an order total in whole cents, every recorded payment is valid and
      the assigned total never exceeds the order total. */
  lemma AssignedNeverExceedsTotal(orderTotal: real, actions: seq<PaymentAction>)
    requires IsCents(orderTotal)
    ensures forall p :: p in Replay(Initial, orderTotal, actions).payments ==> Recorded(p)
    ensures TotalAssigned(Replay(Initial, orderTotal, actions)) <= Max0(orderTotal)
    ensures orderTotal <= 0.0 ==> Replay(Initial, orderTotal, actions).payments == []
  {
    ReplayKeepsConsistent(Initial, orderTotal, actions);
    ConsistentAmounts(Replay(Initial, orderTotal, actions), orderTotal);
  }

  /** At checkout, against the order ledger's total: what is assigned and
      what remains always add up to the order total, and the payment is
      complete exactly when the assigned total equals it. */
  lemma CheckoutConservation(order: OrderStore.OrderState, actions: seq<PaymentAction>)
    requires OrderStore.Total(order) >= 0.0
    ensures var st := Replay(Initial, OrderStore.Total(order), actions);
      && TotalAssigned(st) + RemainingAmount(st, OrderStore.Total(order)) == OrderStore.Total(order)
      && (IsPaymentComplete(st, OrderStore.Total(order)) <==> TotalAssigned(st) == OrderStore.Total(order))
  {
    var total := OrderStore.Total(order);
    ReplayKeepsConsistent(Initial, total, actions);
    ConsistentAmounts(Replay(Initial, total, actions), total);
  }

  // ---------------------------------------------------------------------
  // Further properties

  /** Paying the remainder with a method that needs no reference (or with
      a staged one) completes the payment and clears the selected method. */
  lemma {:induction false} AssignRemainingCompletes(s: PaymentState, orderTotal: real, id: nat)
    requires IsCents(orderTotal) && Consistent(s, orderTotal)
    requires s.activeMethod.Some? && 0.0 < RemainingAmount(s, orderTotal) <= MaxAmount
    requires s.activeMethod.value == Transferencia ==> s.reference != ""
    ensures var r := AssignRemainingAmount(s, orderTotal, id);
      && r.Success?
      && TotalAssigned(r.value) == orderTotal
      && IsPaymentComplete(r.value, orderTotal)
      && r.value.activeMethod.None?
  {
    var remaining := RemainingAmount(s, orderTotal);
    ConsistentAmounts(s, orderTotal);
    CentsClosed(orderTotal, TotalAssigned(s));
    Round2FixesCents(remaining);
    assert Admissible(s, orderTotal, remaining, None);
    var next := AssignPayment(s, orderTotal, remaining, None, id).value;
    AssignKeepsConsistent(s, orderTotal, remaining, None, id);
    ConsistentAmounts(next, orderTotal);
    assert next.payments == s.payments + [next.payments[|s.payments|]];
    assert (s.payments + [next.payments[|s.payments|]])[..|s.payments|] == s.payments;
    assert SumAmounts(next.payments) == SumAmounts(s.payments) + remaining;
  }

  /** Removing the payment just assigned, under an id not used before,
      restores the earlier payments. */
  lemma AssignThenRemove(s: PaymentState, orderTotal: real, amount: real, customReference: Option<string>, id: nat)
    requires forall i :: 0 <= i < |s.payments| ==> s.payments[i].id != id
    requires AssignPayment(s, orderTotal, amount, customReference, id).Success?
    ensures RemovePayment(AssignPayment(s, orderTotal, amount, customReference, id).value, id).payments == s.payments
  {
    var next := AssignPayment(s, orderTotal, amount, customReference, id).value;
    RemoveFreshLast(next, s.payments, id);
  }

  /** Removing by an id that only the last payment carries drops exactly
      that payment. */
  lemma RemoveFreshLast(t: PaymentState, ps: seq<Payment>, id: nat)
    requires |t.payments| == |ps| + 1 && t.payments[..|ps|] == ps && t.payments[|ps|].id == id
    requires forall i :: 0 <= i < |ps| ==> ps[i].id != id
    ensures RemovePayment(t, id).payments == ps
  {
    var k := |ps|;
    assert Seqs.IsFirst(t.payments, IdIs(id), k);
    assert t.payments[k + 1..] == [];
  }

  /** Assigning a whole number of cents, within what is owed, with a
      method that needs no reference and nothing staged, appends exactly
      that payment. */
  lemma AssignCentsAppends(s: PaymentState, orderTotal: real, amount: real, id: nat)
    requires IsCents(amount) && 0.0 < amount <= RemainingAmount(s, orderTotal) && amount <= MaxAmount
    requires s.activeMethod.Some? && s.activeMethod.value != Transferencia && s.reference == ""
    ensures var r := AssignPayment(s, orderTotal, amount, None, id);
      && r.Success?
      && r.value.payments == s.payments + [Payment(id, s.activeMethod.value, amount, None)]
  {
    Round2FixesCents(amount);
    assert Admissible(s, orderTotal, amount, None);
  }

  /** ... and moves exactly that amount from what remains to what is assigned. */
  lemma {:induction false} AssignCents(s: PaymentState, orderTotal: real, amount: real, id: nat)
    requires IsCents(orderTotal) && Consistent(s, orderTotal)
    requires IsCents(amount) && 0.0 < amount <= RemainingAmount(s, orderTotal) && amount <= MaxAmount
    requires s.activeMethod.Some? && s.activeMethod.value != Transferencia && s.reference == ""
    ensures var r := AssignPayment(s, orderTotal, amount, None, id);
      && r.Success?
      && r.value.payments == s.payments + [Payment(id, s.activeMethod.value, amount, None)]
      && TotalAssigned(r.value) == TotalAssigned(s) + amount
      && RemainingAmount(r.value, orderTotal) == RemainingAmount(s, orderTotal) - amount
  {
    AssignCentsAppends(s, orderTotal, amount, id);
    var next := AssignPayment(s, orderTotal, amount, None, id).value;
    var p := Payment(id, s.activeMethod.value, amount, None);
    AssignKeepsConsistent(s, orderTotal, amount, None, id);
    ConsistentAmounts(s, orderTotal);
    ConsistentAmounts(next, orderTotal);
    var paid := TotalAssigned(s);
    var remaining := RemainingAmount(s, orderTotal);
    assert remaining == orderTotal - paid;
    assert (s.payments + [p])[..|s.payments|] == s.payments;
    assert SumAmounts(next.payments) == paid + amount;
    assert TotalAssigned(next) == paid + amount;
  }

  lemma WholeAmounts()
    ensures IsCents(2.0) && IsCents(3.0) && IsCents(5.0)
  {
    assert (2.0 * 100.0).Floor == 200;
    assert (3.0 * 100.0).Floor == 300;
    assert (5.0 * 100.0).Floor == 500;
  }

  /** The store test "assigns payments and updates totals": with the
      ledger's seeded order (total 14.3), a cash payment of 5 leaves one
      payment, 5 assigned and 9.3 remaining. */
  lemma AssignsAndUpdatesTotals()
    ensures var total := OrderStore.Total(OrderStore.Initial);
      var r := AssignPayment(SetActiveMethod(Initial, Some(Efectivo)), total, 5.0, None, 1);
      && r.Success?
      && |r.value.payments| == 1
      && TotalAssigned(r.value) == 5.0
      && RemainingAmount(r.value, total) == 9.3
  {
    OrderStore.InitialTotals();
    WholeAmounts();
    AssignCents(SetActiveMethod(Initial, Some(Efectivo)), 14.3, 5.0, 1);
  }

  lemma {:induction false} CashThree(total: real)
    requires IsCents(total) && total >= 5.0
    ensures var a := AssignPayment(SetActiveMethod(Initial, Some(Efectivo)), total, 3.0, None, 1);
      && a.Success?
      && a.value.payments == [Payment(1, Efectivo, 3.0, None)]
      && Consistent(a.value, total)
      && RemainingAmount(a.value, total) == total - 3.0
  {
    WholeAmounts();
    var s := SetActiveMethod(Initial, Some(Efectivo));
    AssignCents(s, total, 3.0, 1);
    AssignKeepsConsistent(s, total, 3.0, None, 1);
  }

  lemma {:induction false} CreditTwo(a: PaymentState, total: real)
    requires IsCents(total) && Consistent(a, total)
    requires a.payments == [Payment(1, Efectivo, 3.0, None)] && RemainingAmount(a, total) >= 2.0
    ensures var b := AssignPayment(SetActiveMethod(a, Some(Cartera)), total, 2.0, None, 2);
      && b.Success?
      && b.value.payments == [Payment(1, Efectivo, 3.0, None), Payment(2, Cartera, 2.0, None)]
  {
    WholeAmounts();
    AssignCents(SetActiveMethod(a, Some(Cartera)), total, 2.0, 2);
  }

  /** Cash 3 then store credit 2 against any whole-cent total of at
      least 5, then removing the cash payments leaves only the credit. */
  lemma {:induction false} CashThenCreditThenRemoveCash(total: real)
    requires IsCents(total) && total >= 5.0
    ensures var a := AssignPayment(SetActiveMethod(Initial, Some(Efectivo)), total, 3.0, None, 1);
      && a.Success?
      && var b := AssignPayment(SetActiveMethod(a.value, Some(Cartera)), total, 2.0, None, 2);
      && b.Success?
      && |b.value.payments| == 2
      && RemovePaymentsByMethod(b.value, Efectivo).payments == [Payment(2, Cartera, 2.0, None)]
  {
    CashThree(total);
    var a := AssignPayment(SetActiveMethod(Initial, Some(Efectivo)), total, 3.0, None, 1).value;
    CreditTwo(a, total);
    var p1 := Payment(1, Efectivo, 3.0, None);
    var p2 := Payment(2, Cartera, 2.0, None);
    assert [p1, p2][..1] == [p1];
    assert ExceptMethod([p1], Efectivo) == [];
  }

  /** The store test "removes payments by method", on the ledger's seeded
      order. */
  lemma RemovesPaymentsByMethodScenario()
    ensures var total := OrderStore.Total(OrderStore.Initial);
      var a := AssignPayment(SetActiveMethod(Initial, Some(Efectivo)), total, 3.0, None, 1);
      && a.Success?
      && var b := AssignPayment(SetActiveMethod(a.value, Some(Cartera)), total, 2.0, None, 2);
      && b.Success?
      && |b.value.payments| == 2
      && RemovePaymentsByMethod(b.value, Efectivo).payments == [Payment(2, Cartera, 2.0, None)]
  {
    OrderStore.InitialTotals();
    OrderStore.TotalsAreRounded(OrderStore.Initial);
    CashThenCreditThenRemoveCash(OrderStore.Total(OrderStore.Initial));
  }

  /** The button guard and the action disagree on a reference of spaces:
      `canAssignPayment` trims it and refuses, while `assignPayment` only
      asks that it be non-empty and records it. */
  lemma BlankReferenceAccepted()
    ensures var s := PaymentState([], Some(Transferencia), " ");
      && !CanAssignPayment(s)
      && var r := AssignPayment(s, 10.0, 5.0, None, 1);
      && r.Success?
      && r.value.payments == [Payment(1, Transferencia, 5.0, Some(" "))]
  {
    var s := PaymentState([], Some(Transferencia), " ");
    WholeAmounts();
    Round2FixesCents(5.0);
    assert Admissible(s, 10.0, 5.0, None);
  }
}

=== FILE: seqs.dfy ===
/** The two list operations the stores share: `findIndex` and removing the
    element at an index (`splice(index, 1)`). */
module Seqs {
  import opened Wrappers

  /** `findIndex`: the position of the first element satisfying `f`. */
  function FirstIndex<T>(s: seq<T>, f: T -> bool): (r: Option<nat>)
    ensures r.None? <==> forall i :: 0 <= i < |s| ==> !f(s[i])
    ensures r.Some? ==> IsFirst(s, f, r.value)
    decreases |s|
  {
    if s == [] then None
    else if f(s[0]) then Some(0)
    else
      match FirstIndex(s[1..], f)
      case None => None
      case Some(k) => Some(k + 1)
  }

  /** k is the position of the first element satisfying `f`. */
  predicate IsFirst<T>(s: seq<T>, f: T -> bool, k: int) {
    0 <= k < |s| && f(s[k]) && forall j :: 0 <= j < k ==> !f(s[j])
  }

  /** `splice(i, 1)`: everything before position i, then everything after. */
  function RemoveAt<T>(s: seq<T>, i: nat): (r: seq<T>)
    requires i < |s|
    ensures |r| == |s| - 1
    ensures forall j :: 0 <= j < i ==> r[j] == s[j]
    ensures forall j :: i <= j < |r| ==> r[j] == s[j + 1]
    ensures multiset(r) + multiset{s[i]} == multiset(s)
  {
    assert s == s[..i] + [s[i]] + s[i + 1..];
    s[..i] + s[i + 1..]
  }
}

=== FILE: wrappers.dfy ===
/** Optional values and success-or-error results, used wherever the
    checkout code returns `null`/`undefined` or throws. */
module Wrappers {

  /** `null` / `undefined` (None) or a present value (Some). */
  datatype Option<+T> = None | Some(value: T)

  /** The outcome of an operation that either produces a value or throws. */
  datatype Result<+R, +E> = Success(value: R) | Failure(error: E)
}
